=== FILE: README.md ===
# TMDB CLI core in Dafny

This project models the core of a command-line movie browser. The browser
pages through a movie catalog, keeps a user's preferred genres in a local
file, and asks a language-model service to rank a shortlist of movies
against those genres. Three parts of the program are modelled:

- **Browsing** (`tmdb_cli/mov_api.py`). `movie_request` chooses between
  two request shapes: a category listing, or the discover query filtered by
  year. `A_Main` keeps a buffer of fetched movies, a read cursor, the next
  page to request and the total page count. `ensure_cache` refills the
  buffer, and the loop shows five movies at a time until the catalog runs
  dry or the user stops answering `y`. Modules: `Catalog`, `Browse`.
- **Recommendation** (`tmdb_cli/gem_ai.py`). `recommend` gathers a
  shortlist from `pages + 3` catalog pages and skips pages that fail. It
  describes each movie in one prompt line (`build_shortlist_context`) and
  sends the preferred genre names and the shortlist to the ranking service.
  It cleans the JSON answer the way `ask_gemini` does, keeps the first
  `top_k` picks, and maps them back onto the shortlist in the service's
  order. Modules: `Json`, `Ranking`.
- **Preferences** (`tmdb_cli/user_prefs.py`). The preference store is a set
  of genre ids, saved as a sorted JSON list. The model covers `load_prefs`,
  `save_prefs`, `list_prefs`, `add_prefs`, `remove_prefs`, `toggle_ids` and
  the numbered menu of `store_user_prefs_interactive`. Modules: `Genres`,
  `Prefs`.

Python's string built-ins that this code relies on are modelled in `Text`:
`strip`, `lower`, `split`, `join`, `str(int)` and `int(str)`. The
exceptions the code raises become the constructors of `Errors.Error`, and
operations that can raise return `Wrappers.Result`.

Everything outside the program is a parameter:

- the catalog's HTTP call is `Catalog.Fetcher`, a function from a request
  to a page or an error;
- the ranking service is `Ranking.Ranker`, a function from the user message
  to the decoded JSON answer, with `None` meaning the text was not JSON;
- `textwrap.shorten` is a parameter `shorten`;
- the genre taxonomy that `fetchGenres` downloads at start-up is a
  parameter `t`, an ordered list of genres, because menu numbers and name
  matching depend on the dict's insertion order;
- the preferences file is the value it holds (`Prefs.PrefsFile`);
- the answers typed at the browsing prompt are a list of strings, and the
  line typed into the preferences menu is a string.

## Behaviour worth noting

The code does these things, in some cases unlike what its own docstrings
say:

- The module docstring of `gem_ai.py` (lines 14-15) says `recommend` pulls
  *N* pages. The loop `range(1, pages + 4)` (line 133) requests pages
  `1..pages+3`, which is `pages + 3` pages (`Ranking.PageNumbers`,
  `Ranking.ExtraPages`).
- The module docstring (lines 16-17) and the docstring of `ask_gemini`
  (line 75) speak of a list of TMDB ids. `ask_gemini` returns
  `{id, reason}` records, and `recommend` attaches each reason to its movie
  (`Ranking.AskGemini`, `Ranking.Resolve`).
- A pick whose `"id"` is text that `int()` rejects is not skipped. The
  `ValueError` at line 108 escapes the cleaning loop, and the whole answer
  fails with `BadPickId` (`Ranking.NonNumericIdAborts`,
  `Ranking.CleanEntry`). Only non-objects, objects without `"id"` and picks
  whose id is 0 are skipped.
- Negative ids pass the `if mid:` test at line 110. Only 0 is dropped.
- A `"reason"` of JSON `null` becomes the text `"None"`, because line 109
  applies `str()` to it (`Json.PyStr`).
- An unknown category has no endpoint, so every shortlist page raises
  `KeyError`. The page loop catches it, and `recommend` ends with an empty
  shortlist (`Ranking.UnknownCategoryRecommend`).
- `list_prefs` raises `KeyError` for a saved id that the taxonomy lacks,
  and `recommend` passes that error on (`Prefs.ListPrefs`,
  `Ranking.Recommend`).
- `load_prefs` (user_prefs.py line 35) applies `set()` to whatever JSON the
  file holds. A JSON string loads as the set of its characters, and an
  object as the set of its keys.

## Model

| member | source | states |
|---|---|---|
| Catalog.MovieRequest | tmdb_cli/mov_api.py:16-48 | Without a year, a request is built exactly when the category is one of the four endpoint keys, and it is the category listing at exactly that key's path segment and the given page. Otherwise the error is the unknown category. With a year, the result is always the discover query for that year and page. |
| Catalog.YearQueryIgnoresCategory | tmdb_cli/mov_api.py:41-47 | With a year given, two different categories produce the same request. |
| Catalog.Url | tmdb_cli/mov_api.py:35-47 | Every URL starts with the API base. Right after it comes `movie/<path>?` for a category request and `discover/movie?` for a year request. A category URL ends with `&page=<page>`. A discover URL ends with `&page=<page>`, then the release-year filter, then the popularity sort. |
| Catalog.CategoryUrlsDiffer | tmdb_cli/mov_api.py:36-39 | Two category requests with different paths, neither holding a `?`, have different URLs, whatever their pages. |
| Catalog.CategoriesGetDistinctUrls | tmdb_cli/mov_api.py:16-39 | Without a year, two different known categories both build a request, and their URLs differ. |
| Catalog.EndpointsDistinct | tmdb_cli/mov_api.py:16-21 | The endpoint table maps different categories to different path segments, and no segment holds a `?`. |
| Catalog.FetchPage | tmdb_cli/mov_api.py:28-58 | An unknown category without a year fails with `KeyError` and never reaches the network. Otherwise the result is the network's answer to the request that `movie_request` builds. |
| Browse.EnsureCache | tmdb_cli/mov_api.py:70-80 | With unread movies it returns true and changes nothing. When exhausted it returns false and changes nothing. It fails exactly when it must fetch and the fetch fails, and then with the fetch's own error. When it must fetch and the fetch succeeds, the new state is the old buffer followed by the page's movies, the page count the response reports, and the next page number; the cursor stays, and it returns true. |
| Browse.Init | tmdb_cli/mov_api.py:63-66 | The loop starts with an empty buffer, the cursor at 0, page 1 next and no page count known. This state is valid and neither buffered nor exhausted, so the first check fetches. |
| Browse.FirstCallFetches | tmdb_cli/mov_api.py:63-80 | The first call fetches page 1 and reports movies available, even when that page is empty. |
| Browse.ExhaustionIsTerminal | tmdb_cli/mov_api.py:73-75 | Once `ensure_cache` has returned false, the state is exhausted. Every later call returns the same answer and leaves the state alone, whatever the network would return. |
| Browse.TakeBatch | tmdb_cli/mov_api.py:87-100 | The batch is `cache[cursor:min(cursor+5, len(cache))]` and the cursor moves to its end. Nothing else changes. The batch is non-empty exactly when unread movies were buffered. |
| Browse.ContinuesIff | tmdb_cli/mov_api.py:104-105 | The loop goes on exactly when the answer, stripped of surrounding whitespace, is `y` or `Y`. |
| Browse.Continues | tmdb_cli/mov_api.py:104-105 | An answer that continues the loop is `y` or `Y` once surrounding whitespace is stripped. |
| Browse.ShowRound | tmdb_cli/mov_api.py:82-103 | One pass of the loop body renders a batch exactly when the first `ensure_cache` succeeds with movies available, and the batch is then the next at most five buffered movies after the cursor. A failing first check stops the pass with that fetch's error and changes nothing; a first check with nothing available stops with "No more movies". After a batch, the pre-fetch decides the rest: its error stops the pass in the state after the batch; otherwise the pass ends in the pre-fetch's state, and goes on to the prompt exactly when the pre-fetch reports movies available. The shown movies lie between the old and the new cursor, and the state only grows. |
| Browse.Loop | tmdb_cli/mov_api.py:82-105 | The loop keeps the state valid and only grows it. It shows at most one batch more than the number of answers given. |
| Browse.LoopShowsBufferInOrder | tmdb_cli/mov_api.py:82-105 | What had been shown, followed by every batch the loop shows, is exactly the buffer up to the final cursor: no movie is skipped or repeated, and the order is the fetch order. |
| Browse.LoopBatchesAreSmall | tmdb_cli/mov_api.py:87-88 | No batch holds more than five movies. |
| Browse.LoopFollowsAnswers | tmdb_cli/mov_api.py:101-105 | Every answer before the last batch continued the loop. A declined session stopped at an answer that is not `y`, after as many batches as answers read. A session whose input ran out showed one batch more than there were answers. |
| Browse.LoopEndsExhausted | tmdb_cli/mov_api.py:82-102 | The two endings without a prompt, "No more movies to show." and the silent break after the pre-fetch, happen only when the catalog is exhausted. |
| Browse.LoopStopsAfterLastBatch | tmdb_cli/mov_api.py:82-102 | Conversely, when the first check has movies and the batch shown empties an exhausted catalog, the loop shows that one batch and stops without asking. |
| Browse.BrowseSession | tmdb_cli/mov_api.py:61-105 | From the initial state, the batches shown, concatenated, are the buffer's prefix up to the final cursor, in fetch order. |
| Browse.ExhaustedLoopShowsNothing | tmdb_cli/mov_api.py:73-85 | From an exhausted state the loop shows nothing, ends with "No more movies", and keeps its state. |
| Browse.NoFailureWhenFetchesSucceed | tmdb_cli/mov_api.py:70-105 | With a known category or a year, and a network that answers every request, the session never ends with an exception. |
| Browse.RoundNeverFails | tmdb_cli/mov_api.py:82-102 | Under the same conditions, no pass of the loop body stops with an exception. |
| Json.TruncateReal | tmdb_cli/gem_ai.py:108 | `int()` of a float rounds toward zero: the result is the integer between 0 and the float that lies less than one away from it. |
| Json.PyInt | tmdb_cli/gem_ai.py:108 | `int(v)` succeeds exactly for booleans, numbers and text that parses as an integer. An integer is its own value, `True` and `False` are 1 and 0, a float is truncated toward zero, and text gives the value `int()` parses from it. Every failure, the `TypeError` and the `ValueError` alike, is `BadPickId`. |
| Json.PyIntOfDecimalText | tmdb_cli/gem_ai.py:108 | An id sent as decimal text coerces to the same id as the number itself. |
| Json.PyStr | tmdb_cli/gem_ai.py:109 | `str(v)` keeps a string as it is. An integer becomes decimal text that parses back to it. Null becomes `"None"`, and booleans become `"True"` and `"False"`. |
| Json.Iterate | tmdb_cli/gem_ai.py:105 | Iterating fails with `TypeError` exactly for numbers, booleans and null. An array yields its items. Anything else that is iterable yields no objects. |
| Genres.Lookup | tmdb_cli/user_prefs.py:53 | A lookup finds a name exactly when the id is a key of the taxonomy, and what it finds is an entry of the taxonomy. |
| Genres.LookupEntry | tmdb_cli/user_prefs.py:53 | In a taxonomy with distinct ids, looking up the id of any entry finds that entry's name. |
| Genres.Label | tmdb_cli/gem_ai.py:68 | `movieGenres.get(gid, str(gid))` gives the genre's name for a known id. For an unknown id it gives decimal text that parses back to the id. |
| Text.Strip | tmdb_cli/user_prefs.py:104 | The result of `strip()` neither starts nor ends with whitespace and is no longer than the input. |
| Text.StripCutsOnlySpace | tmdb_cli/gem_ai.py:109 | What `strip()` removes is whitespace, and what it keeps is the infix of the input that starts after the leading whitespace. |
| Text.StripIdempotent | tmdb_cli/gem_ai.py:109 | Stripping a second time changes nothing, so a cleaned reason is already stripped. |
| Text.Lower | tmdb_cli/mov_api.py:104 | `lower()` keeps the length and lower-cases each ASCII letter in place. |
| Text.LowerIsY | tmdb_cli/mov_api.py:104 | Lower-casing gives `"y"` exactly for `"y"` and `"Y"`. |
| Text.IntToString | tmdb_cli/gem_ai.py:70 | `str(n)` is non-empty, starts with `-` exactly for a negative `n`, and is otherwise made of digits. It has no leading zero: a non-negative `n` starts with `0` only when the text is `"0"`, and the digit after a minus is never `0`. |
| Text.IntToStringRoundTrip | tmdb_cli/gem_ai.py:108 | `int(str(n)) == n` for every integer. |
| Text.ParseInt | tmdb_cli/user_prefs.py:109 | `int(s)` succeeds only on text that is not blank once stripped and then holds only digits and underscores, apart from one leading sign; any other character makes it raise. A negative result comes from stripped text that starts with `-`. |
| Text.ParseIntOfDigits | tmdb_cli/user_prefs.py:109 | Digits, or a minus sign and digits, with any surrounding whitespace, parse to their decimal value, negated after the minus sign. |
| Text.ParseIntIgnoresPadding | tmdb_cli/user_prefs.py:109 | Surrounding whitespace does not change what `int()` makes of text, so `"1, 2"` and `"1,2"` select the same numbers. |
| Text.Split | tmdb_cli/user_prefs.py:109 | `split(",")` yields at least one piece, and no piece contains the separator. |
| Text.JoinSplit | tmdb_cli/user_prefs.py:109 | Joining the pieces of a split with the same separator gives the text back. |
| Text.SplitJoin | tmdb_cli/gem_ai.py:71 | Joining separator-free pieces and splitting again gives exactly those pieces. |
| Text.Join | tmdb_cli/gem_ai.py:71 | Joining no parts gives the empty text, and joining one part gives that part. Joining more gives the first part, the separator, and the join of the rest. |
| Text.JoinAppend | tmdb_cli/gem_ai.py:68-71 | Joining two non-empty lists end to end is joining each and putting one separator between them. |
| Prefs.LoadPrefs | tmdb_cli/user_prefs.py:31-38 | A saved list loads as the set of its elements. A missing or undecodable file, or one holding a number, boolean or null, loads as the empty set. |
| Prefs.Min | tmdb_cli/user_prefs.py:45 | A non-empty set has a least element, and `Min` returns it. |
| Prefs.Sorted | tmdb_cli/user_prefs.py:45 | `sorted(ids)` is strictly increasing and holds exactly the set's elements. |
| Prefs.SavePrefs | tmdb_cli/user_prefs.py:41-45 | `save_prefs` writes a strictly increasing list with one entry per id. |
| Prefs.LoadSave | tmdb_cli/user_prefs.py:31-45 | Loading what was saved gives the same set back. |
| Prefs.IncreasingUnique | tmdb_cli/user_prefs.py:45 | Two strictly increasing lists with the same elements are equal, so a set has exactly one sorted form. |
| Prefs.SaveLoad | tmdb_cli/user_prefs.py:31-45 | Loading and re-saving a file that `save_prefs` wrote writes the same list again. |
| Prefs.NamesOf | tmdb_cli/user_prefs.py:53 | `[movieGenres[i] for i in ids]` succeeds exactly when every id is a key, and then gives each id's name in order. Otherwise it fails with a `KeyError` for an id the taxonomy lacks. |
| Prefs.ListPrefs | tmdb_cli/user_prefs.py:51-53 | `list_prefs` succeeds exactly when every saved id is known. It then gives one name per saved id, in ascending id order. Otherwise the error names a saved id the taxonomy lacks. |
| Prefs.FirstNameMatch | tmdb_cli/user_prefs.py:65-68 | An id is found exactly when some genre's name equals the item ignoring case, and it is the first such genre in taxonomy order. |
| Prefs.AddTarget | tmdb_cli/user_prefs.py:61-68 | An int item adds itself exactly when it is a known genre id, and nothing otherwise. A name adds the first genre whose name matches it ignoring case, and nothing when none does. |
| Prefs.RemoveTarget | tmdb_cli/user_prefs.py:76-82 | `remove_prefs` discards an int item as given, known or not, and a name as its first case-insensitive match. |
| Prefs.AddAll | tmdb_cli/user_prefs.py:59-68 | The result is the old set plus exactly the ids the items name. Nothing else is added, and nothing is removed. |
| Prefs.RemoveAll | tmdb_cli/user_prefs.py:74-82 | The result is the old set minus exactly the ids the items name. Nothing else is removed. |
| Prefs.AddPrefs | tmdb_cli/user_prefs.py:55-69 | After `add_prefs` the file is sorted. An id is in it exactly when it was there before or some item names it. |
| Prefs.RemovePrefs | tmdb_cli/user_prefs.py:72-83 | After `remove_prefs` the file is sorted. An id is in it exactly when it was there before and no item names it. |
| Prefs.AddByNameIgnoresCase | tmdb_cli/user_prefs.py:66 | Adding a genre by two names that differ only in case has the same effect. |
| Prefs.FirstNameMatchCase | tmdb_cli/user_prefs.py:66 | The name match depends only on the lower-cased name. |
| Prefs.SymmetricDifference | tmdb_cli/user_prefs.py:88-92 | An id is in the result exactly when it is in one of the two sets and not in both. |
| Prefs.ToggleTwice | tmdb_cli/user_prefs.py:85-93 | Toggling the same ids twice restores the original set. |
| Prefs.Toggle | tmdb_cli/user_prefs.py:88-92 | The toggle loop, removing present ids and adding absent ones one at a time in any order, yields the symmetric difference. |
| Prefs.ToggleIds | tmdb_cli/user_prefs.py:85-93 | `toggle_ids` saves a sorted file whose set is the symmetric difference of the old set and the toggled ids. Ids outside the toggled set keep their membership. |
| Prefs.MenuIds | tmdb_cli/user_prefs.py:116-122 | Every in-range menu number selects its genre's id. Out-of-range numbers select nothing, and every selected id comes from some in-range number. |
| Prefs.MenuNumbers | tmdb_cli/user_prefs.py:100-102 | The menu numbers are exactly `1..len(movieGenres)`. |
| Prefs.MenuCoversTaxonomy | tmdb_cli/user_prefs.py:100-122 | Choosing every printed number selects every genre. |
| Prefs.ParseAll | tmdb_cli/user_prefs.py:109 | The comprehension succeeds exactly when every piece parses, and then it gives each piece's value in order. |
| Prefs.ParseIndices | tmdb_cli/user_prefs.py:109 | The index set is exactly the set of the parsed pieces of `raw.split(",")`, and parsing fails when any piece fails. |
| Prefs.StorePrefsInteractive | tmdb_cli/user_prefs.py:95-127 | An empty line makes no change. A piece that is not a number makes no change. The outcome is "no valid selections" exactly when the numbers parse but pick no genre, and "updated" exactly when they pick at least one. Then the saved file is a strictly increasing list, as `save_prefs` writes it, whose set is the symmetric difference of the old set and the picked ids, and the names are listed again. The file changes only in the last case. |
| Ranking.PageNumbers | tmdb_cli/gem_ai.py:133 | The pages requested are `1..pages+3`, and none when that range is empty. |
| Ranking.PageMovies | tmdb_cli/gem_ai.py:134-139 | A page that fails adds nothing. A page that succeeds adds its movies, in the page's order. |
| Ranking.Gather | tmdb_cli/gem_ai.py:132-139 | A movie is in the shortlist exactly when some requested page returned it. Failed pages contribute nothing. One page gives exactly that page's movies in the page's order, so with `GatherAppend` the shortlist is the pages' results concatenated in request order, repeats included. |
| Ranking.GatherAppend | tmdb_cli/gem_ai.py:133-139 | Gathering two runs of pages gives the first run's movies followed by the second's, so the shortlist keeps page order. |
| Ranking.Shortlist | tmdb_cli/gem_ai.py:132-139 | A movie is in the shortlist exactly when one of the pages `1..pages+3` returned it. When `pages + 3` is not positive no page is requested and the shortlist is empty. |
| Ranking.ShortlistGrows | tmdb_cli/gem_ai.py:133-139 | Asking for one more page appends that page's movies to the shortlist, so the shortlist is pages `1..pages+3` concatenated in order. |
| Ranking.UnknownCategoryGathersNothing | tmdb_cli/gem_ai.py:133-139 | An unknown category makes every page fail, and the shortlist is empty. |
| Ranking.GenreLabels | tmdb_cli/gem_ai.py:68 | Each genre id of a movie gets its label, in the movie's order. |
| Ranking.ContextLine | tmdb_cli/gem_ai.py:67-70 | Each shortlist line is the movie's id, `": "`, its title, `" \| genres: "`, its genre labels joined by `", "`, `" \| "`, and then the overview passed through `shorten`. |
| Ranking.ContextLineId | tmdb_cli/gem_ai.py:70 | The text before a line's first colon parses back to the movie's id. |
| Ranking.FirstPieceBeforeColon | tmdb_cli/gem_ai.py:70 | Text without a colon, followed by `": "`, is the first piece when the line is split at colons. |
| Ranking.ContextLines | tmdb_cli/gem_ai.py:66-70 | There is one line per shortlisted movie, in shortlist order. |
| Ranking.ShortlistContext | tmdb_cli/gem_ai.py:64-71 | No movies give the empty text and one movie gives its line. More movies give the first movie's line, a newline, and the context of the rest. |
| Ranking.ContextSplitsIntoLines | tmdb_cli/gem_ai.py:64-71 | When no line holds a line break, the context splits back into exactly the shortlist's lines. |
| Ranking.UserMessage | tmdb_cli/gem_ai.py:84-86 | The user message starts with the preferred-genres header, then holds the preferred names joined by `", "`, then the shortlist header, and ends with the shortlist context. Its length is the sum of its four parts. |
| Ranking.CleanEntry | tmdb_cli/gem_ai.py:106-111 | An entry fails exactly when it is an object whose `"id"` `int()` rejects, and then with `BadPickId`. It is skipped exactly when it is not an object, has no `"id"`, or has id 0. Otherwise it keeps that id, and its reason is `str()` of the `"reason"` entry (`""` when absent), stripped. |
| Ranking.Collect | tmdb_cli/gem_ai.py:104-111 | The loop keeps at most one pick per entry. |
| Ranking.CollectFails | tmdb_cli/gem_ai.py:105-108 | The loop fails exactly when some entry fails, and with that entry's error. |
| Ranking.CollectKeepsEntries | tmdb_cli/gem_ai.py:104-111 | Every pick the loop returns is one that an entry kept. |
| Ranking.CollectAppend | tmdb_cli/gem_ai.py:104-111 | Cleaning two runs of entries gives the first run's picks followed by the second's, so picks keep the service's order. |
| Ranking.CollectKept | tmdb_cli/gem_ai.py:110-111 | Entries that each keep a pick give exactly those picks, in order. |
| Ranking.CleanPicks | tmdb_cli/gem_ai.py:101-111 | The cleaning of a decoded answer fails exactly when some element's id cannot be coerced, and then with `BadPickId`. Otherwise every pick has a non-zero id and a stripped reason, and there are no more picks than elements. |
| Ranking.SkippedEntryDropped | tmdb_cli/gem_ai.py:105-111 | An element the loop skips (not an object, no `"id"`, or id 0) leaves no pick behind, wherever it stands in the answer. |
| Ranking.KeptEntryKept | tmdb_cli/gem_ai.py:106-111 | An element the loop keeps gives its pick, whatever its shape: a text id, a missing reason or extra fields do not stop it. With `CleanPicksAppend` and `SkippedEntryDropped` this fixes the picks of every answer that cleans. |
| Ranking.CollectSkips | tmdb_cli/gem_ai.py:104-111 | A skipped entry contributes nothing to the loop's result. |
| Ranking.CleanPicksAppend | tmdb_cli/gem_ai.py:104-111 | Cleaning an answer made of two parts gives the picks of the first part followed by those of the second. |
| Ranking.CleanEncodedPick | tmdb_cli/gem_ai.py:106-111 | A well-formed pick, sent as the requested `{id, reason}` object, is kept unchanged. |
| Ranking.CleanEncodedPicks | tmdb_cli/gem_ai.py:104-111 | Well-formed picks, sent as an array of the requested objects, come back unchanged and in order. |
| Ranking.BadIsNotDecimal | tmdb_cli/gem_ai.py:108 | `int("bad")` raises. |
| Ranking.NonNumericIdAborts | tmdb_cli/gem_ai.py:105-111 | One pick whose id is text `int()` rejects makes the whole cleaning fail with `BadPickId`. The pick is not skipped. |
| Ranking.PySliceTo | tmdb_cli/gem_ai.py:112 | `xs[:k]` is a prefix of `xs`. It holds `min(k, len(xs))` elements for `k >= 0`, and all but the last `-k` elements for negative `k`. |
| Ranking.AskGemini | tmdb_cli/gem_ai.py:101-114 | Text that is not JSON fails with `InvalidRankingJson`, and a non-iterable answer fails with `TypeError`. A cleaning that fails gives `BadPickId`. Otherwise the result is `cleaned[:top_k]`: every pick is well formed, and there are at most `top_k` of them. |
| Ranking.AskGeminiOfEncoded | tmdb_cli/gem_ai.py:101-112 | An answer in the requested shape yields its first `top_k` picks, in the service's order. |
| Ranking.IdMap | tmdb_cli/gem_ai.py:149 | The map's keys are exactly the shortlist's ids. Each key maps to the last shortlisted movie with that id. |
| Ranking.LastWithId | tmdb_cli/gem_ai.py:149 | The result is a movie with the id, and no later movie carries the same id. |
| Ranking.ResolveWith | tmdb_cli/gem_ai.py:150-156 | Each result is the mapped movie for its id with a reason attached. There are no more results than picks, and exactly as many when every pick is known. |
| Ranking.ResolveAppend | tmdb_cli/gem_ai.py:151-156 | Resolving two runs of picks gives the first run's movies followed by the second's, so the service's order is preserved. |
| Ranking.ResolveAllKnown | tmdb_cli/gem_ai.py:151-156 | When every pick is shortlisted, the k-th result is the k-th pick's movie carrying that pick's reason. |
| Ranking.UnknownPickDropped | tmdb_cli/gem_ai.py:152-153 | A pick whose id is not shortlisted contributes nothing, wherever it stands. |
| Ranking.Resolve | tmdb_cli/gem_ai.py:149-157 | Every result is the last shortlisted movie with its id, carrying a reason. When every pick is shortlisted, there is one result per pick, in pick order, each the last shortlisted movie with the pick's id and carrying the pick's reason. |
| Ranking.ResolveConcat | tmdb_cli/gem_ai.py:151-156 | Resolving two runs of picks against a shortlist gives the first run's movies followed by the second's. |
| Ranking.ResolveOne | tmdb_cli/gem_ai.py:151-156 | One pick gives the last shortlisted movie with its id, carrying the pick's reason, or nothing when no shortlisted movie has that id. With `ResolveConcat` this fixes the result for every list of picks. |
| Ranking.ResolveDropsUnlisted | tmdb_cli/gem_ai.py:151-156 | A pick that names no shortlisted movie is skipped, and the picks around it keep their results in order. |
| Ranking.Recommend | tmdb_cli/gem_ai.py:122-157 | A `list_prefs` error passes through. No saved preference fails with `NoPreferences`. `EmptyShortlist` happens exactly when preferences exist and the shortlist is empty. Otherwise the ranking service is asked with the user message built from the names and the shortlist context. Its cleaning error is the result, or else the picks are resolved against the shortlist. A success holds at most `top_k` movies. |
| Ranking.UnknownCategoryRecommend | tmdb_cli/gem_ai.py:133-142 | With preferences saved, an unknown category never reaches the ranking service and ends with `EmptyShortlist`. |
| Ranking.RecommendFollowsRanking | tmdb_cli/gem_ai.py:145-157 | When the service answers with well-formed picks in the requested shape, `recommend` returns the result of resolving its first `top_k` picks against the shortlist: by `ResolveConcat`, `ResolveOne` and `ResolveDropsUnlisted`, the shortlisted movies those picks name, in the service's order, each with its reason, with picks naming no shortlisted movie skipped. |

## Left out

- The URL text (`Catalog.Url`) is stated for reference only. `FetchPage` hands the `Request` itself to the `Fetcher` parameter, so nothing else in the model uses the URL.
- HTTP, the API keys and request headers, the `timeout=10` and the decoding of responses are left out. The catalog is the `Fetcher` parameter, and a failure of any kind is one `Err` value.
- The ranking service client, the system instruction, the model settings, timing and the `print` of the finish reason are left out. The service is the `Ranker` parameter. A `response.text` of `None` is not modelled.
- Terminal output is left out: `rich` panels, `Live`, `sleep`, `formatter.printFormat` and every `print`.
- The `cli.py` commands are left out, as is the download of the taxonomy (`fetchGenres.py`). The taxonomy is a parameter.
- File I/O is left out. The directory creation and the JSON encoding of the preferences file are the identity on the value held.
- `textwrap.shorten` is left out and passed in as `shorten`, because it is library code whose word-wrapping rules are not part of this program.
- The fields of a movie record are assumed present. A record missing `"title"` and the like would raise a `KeyError` in code outside this model.
- Text.Lower: lower-cases ASCII letters only, because Unicode case mapping tables are out of scope. Name matching for non-ASCII genre names is therefore weaker than Python's.
- Text.ParseInt: accepts ASCII digits only, and not the other Unicode decimal digits that Python's `int()` also accepts.
- Json.PyStr: renders floats, lists and objects as `""` rather than as Python's `repr` text. The reason of such a pick is modelled as empty.
- Json.Iterate: iterating an object yields its keys, all of them strings. The model yields nothing instead, which has the same effect on the cleaning loop, because strings are skipped.
- Json.Value: JSON `NaN` and `Infinity`, and float precision, are not modelled. Floats are reals.
- Prefs.LoadPrefs: a file holding a JSON string (which loads as the set of its characters), an object (the set of its keys) or a list with non-integer elements is not modelled, because the model's set holds integers only. `WrongType` stands for a JSON number, boolean or null, which `set()` rejects with `TypeError` and which therefore loads as the empty set.
- Ranking.Recommend: `if movie:` is always true in the model, because a catalog record is a non-empty dict.
- Browse.Loop: the `EOFError` from `input()` at the end of input is modelled as the `EndOfInput` outcome rather than as an exception.
- Prefs.StorePrefsInteractive: the line typed is a parameter, so the `EOFError` that `input()` raises at the end of input is not modelled. The menu has ended before any change in that case.

=== FILE: browse.dfy ===
/** The paged browsing cache behind the `fetch` command (`A_Main` in
    tmdb_cli/mov_api.py): a buffer of fetched movies, a read cursor, the next
    page to request and the total page count, served in batches of five
    until the catalog runs dry or the user stops. */
module Browse {
  import opened Wrappers
  import opened Errors
  import opened Text
  import opened Catalog

  const BatchSize: nat := 5

  /** `movie_cache`, `cursor`, `current_page` and `total_pages`
      (`None` until the first page arrives). */
  datatype BrowseState = BrowseState(
    cache: seq<Movie>,
    cursor: nat,
    currentPage: int,
    totalPages: Option<int>)

  /** The state before anything is fetched. */
  function Init(): (r: BrowseState)
    ensures Valid(r) && r.cache == [] && r.cursor == 0 && r.currentPage == 1 && r.totalPages.None?
    ensures !Buffered(r) && !Exhausted(r)
  {
    BrowseState([], 0, 1, None)
  }

  /** The cursor stays within the buffer and pages are counted from 1. */
  predicate Valid(s: BrowseState) {
    s.cursor <= |s.cache| && s.currentPage >= 1
  }

  /** Some fetched movie has not been shown yet. */
  predicate Buffered(s: BrowseState) {
    s.cursor < |s.cache|
  }

  /** Everything fetched has been shown and every page has been requested. */
  predicate Exhausted(s: BrowseState) {
    !Buffered(s) && s.totalPages.Some? && s.currentPage > s.totalPages.value
  }

  /** `later` can follow `s`: the buffer only grows at its end and neither
      the cursor nor the page counter moves back. */
  predicate Grows(s: BrowseState, later: BrowseState) {
    && s.cache <= later.cache
    && s.cursor <= later.cursor
    && s.currentPage <= later.currentPage
  }

  /** What `ensure_cache` returns, with the state it leaves behind. */
  datatype Ensured = Ensured(available: bool, state: BrowseState)

  /** `ensure_cache()`. `fetched` is what requesting `s.currentPage` yields;
      it is consulted only when the buffer is used up and pages remain. An
      `Err` is the exception escaping the fetch, with nothing changed. */
  function EnsureCache(s: BrowseState, fetched: Result<Page, Error>): (r: Result<Ensured, Error>)
    ensures Buffered(s) ==> r == Ok(Ensured(true, s))
    ensures Exhausted(s) ==> r == Ok(Ensured(false, s))
    ensures r.Err? <==> !Buffered(s) && !Exhausted(s) && fetched.Err?
    ensures r.Err? ==> fetched.Err? && r.error == fetched.error
    ensures r.Ok? ==> (r.value.available <==> !Exhausted(s))
    ensures r.Ok? ==> Grows(s, r.value.state) && r.value.state.cursor == s.cursor
    ensures r.Ok? && r.value.state != s ==>
      && fetched.Ok?
      && r.value.state.cache == s.cache + fetched.value.results
      && r.value.state.currentPage == s.currentPage + 1
      && r.value.state.totalPages == Some(fetched.value.totalPages)
    ensures !Buffered(s) && !Exhausted(s) && fetched.Ok? ==>
      r == Ok(Ensured(true, s.(cache := s.cache + fetched.value.results,
                               currentPage := s.currentPage + 1,
                               totalPages := Some(fetched.value.totalPages))))
    ensures Valid(s) && r.Ok? ==> Valid(r.value.state)
  {
    if s.cursor < |s.cache| then
      Ok(Ensured(true, s))
    else if s.totalPages.Some? && s.currentPage > s.totalPages.value then
      Ok(Ensured(false, s))
    else
      match fetched
      case Err(e) => Err(e)
      case Ok(page) =>
        Ok(Ensured(true, s.(cache := s.cache + page.results,
                             totalPages := Some(page.totalPages),
                             currentPage := s.currentPage + 1)))
  }

  /** The first call always fetches page 1, even when it comes back empty. */
  lemma FirstCallFetches(page: Page)
    ensures EnsureCache(Init(), Ok(page))
         == Ok(Ensured(true, BrowseState(page.results, 0, 2, Some(page.totalPages))))
  {
    assert [] + page.results == page.results;
  }

  /** Once exhausted, `ensure_cache` keeps answering false whatever the
      network would return, and the state stays as it is. */
  lemma ExhaustionIsTerminal(s: BrowseState, fetched1: Result<Page, Error>, fetched2: Result<Page, Error>)
    requires EnsureCache(s, fetched1).Ok? && !EnsureCache(s, fetched1).value.available
    ensures Exhausted(EnsureCache(s, fetched1).value.state)
    ensures EnsureCache(EnsureCache(s, fetched1).value.state, fetched2) == EnsureCache(s, fetched1)
  {
    assert Exhausted(s);
  }

  /** Render the next batch: `movie_cache[cursor:upper]` with
      `upper = min(cursor + 5, len(movie_cache))`, then `cursor = upper`. */
  function TakeBatch(s: BrowseState): (r: (seq<Movie>, BrowseState))
    requires Valid(s)
    ensures Valid(r.1) && r.1 == s.(cursor := r.1.cursor)
    ensures r.1.cursor == if s.cursor + BatchSize <= |s.cache| then s.cursor + BatchSize else |s.cache|
    ensures s.cursor <= r.1.cursor && r.0 == s.cache[s.cursor..r.1.cursor]
    ensures |r.0| <= BatchSize
    ensures Buffered(s) <==> |r.0| > 0
    ensures Exhausted(s) ==> Exhausted(r.1)
  {
    var upper := if s.cursor + BatchSize <= |s.cache| then s.cursor + BatchSize else |s.cache|;
    (s.cache[s.cursor..upper], s.(cursor := upper))
  }

  /** `input().strip().lower() == "y"`. */
  predicate Continues(answer: string)
    ensures Continues(answer) ==> Strip(answer) == "y" || Strip(answer) == "Y"
  {
    LowerIsY(Strip(answer));
    Lower(Strip(answer)) == "y"
  }

  /** Only a lone `y` or `Y`, with any surrounding whitespace, continues. */
  lemma ContinuesIff(answer: string)
    ensures Continues(answer) <==> Strip(answer) == "y" || Strip(answer) == "Y"
  {
    LowerIsY(Strip(answer));
  }

  /** How a browsing session ended. */
  datatype Outcome =
      /** `ensure_cache` failed before a batch: "No more movies to show." */
    | NoMoreMovies
      /** The pre-fetch after a batch found nothing more; the loop breaks silently. */
    | NoFurtherPage
      /** The user answered something other than `y`. */
    | Declined
      /** Standard input ended at the prompt (`EOFError`). */
    | EndOfInput
      /** A fetch raised; the exception ends the command. */
    | Failed(error: Error)

  /** The batches rendered, in order, the final state, and how it ended. */
  datatype BrowseRun = BrowseRun(batches: seq<seq<Movie>>, final: BrowseState, outcome: Outcome)

  /** All batches one after the other. */
  function Flatten(batches: seq<seq<Movie>>): seq<Movie> {
    if batches == [] then [] else batches[0] + Flatten(batches[1..])
  }

  /** One pass of the loop body up to the prompt: make sure something is
      buffered, render a batch, pre-fetch. `rendered` says whether a batch
      (`shown`, possibly empty) was rendered; `stop` is `None` when the loop
      goes on to ask the user. */
  datatype Round = Round(rendered: bool, shown: seq<Movie>, state: BrowseState, stop: Option<Outcome>)

  /** The `ensure_cache()` call that opens a pass of the loop body. */
  function FirstCheck(fetch: Fetcher, movieType: string, releaseYear: Option<int>, s: BrowseState): Result<Ensured, Error> {
    EnsureCache(s, FetchPage(fetch, movieType, s.currentPage, releaseYear))
  }

  function ShowRound(fetch: Fetcher, movieType: string, releaseYear: Option<int>, s: BrowseState): (r: Round)
    requires Valid(s)
    ensures r.rendered <==> FirstCheck(fetch, movieType, releaseYear, s).Ok? && FirstCheck(fetch, movieType, releaseYear, s).value.available
    ensures r.rendered ==> r.shown == TakeBatch(FirstCheck(fetch, movieType, releaseYear, s).value.state).0
    ensures r.rendered && Exhausted(TakeBatch(FirstCheck(fetch, movieType, releaseYear, s).value.state).1) ==>
      r.stop == Some(NoFurtherPage) && r.state == TakeBatch(FirstCheck(fetch, movieType, releaseYear, s).value.state).1
    ensures Buffered(s) ==> r.rendered && r.shown == TakeBatch(s).0
    ensures FirstCheck(fetch, movieType, releaseYear, s).Err? ==>
      r == Round(false, [], s, Some(Failed(FirstCheck(fetch, movieType, releaseYear, s).error)))
    ensures FirstCheck(fetch, movieType, releaseYear, s).Ok? && !FirstCheck(fetch, movieType, releaseYear, s).value.available ==>
      r.stop == Some(NoMoreMovies)
    ensures r.rendered ==>
      var taken := TakeBatch(FirstCheck(fetch, movieType, releaseYear, s).value.state).1;
      var second := FirstCheck(fetch, movieType, releaseYear, taken);
      && (second.Err? ==> r.stop == Some(Failed(second.error)) && r.state == taken)
      && (second.Ok? ==> r.state == second.value.state && (r.stop.None? <==> second.value.available))
    ensures Valid(r.state) && Grows(s, r.state)
    ensures s.cache[..s.cursor] + r.shown == r.state.cache[..r.state.cursor]
    ensures |r.shown| <= BatchSize
    ensures !r.rendered ==> r.shown == [] && r.stop.Some?
    ensures r.stop.Some? ==> !r.stop.value.Declined? && !r.stop.value.EndOfInput?
    ensures r.stop == Some(NoMoreMovies) ==> !r.rendered
    ensures r.stop == Some(NoMoreMovies) || r.stop == Some(NoFurtherPage) ==> Exhausted(r.state)
  {
    var first := FirstCheck(fetch, movieType, releaseYear, s);
    if first.Err? then Round(false, [], s, Some(Failed(first.error)))
    else if !first.value.available then Round(false, [], first.value.state, Some(NoMoreMovies))
    else
      var (batch, shown) := TakeBatch(first.value.state);
      var second := EnsureCache(shown, FetchPage(fetch, movieType, shown.currentPage, releaseYear));
      if second.Err? then Round(true, batch, shown, Some(Failed(second.error)))
      else
        var next := second.value.state;
        assert next.cache[..next.cursor] == shown.cache[..shown.cursor];
        Round(true, batch, next, if second.value.available then None else Some(NoFurtherPage))
  }

  /** Rendering one batch and then the rest adds up to the same buffer prefix. */
  lemma FlattenCons(before: seq<Movie>, batch: seq<Movie>, rest: seq<seq<Movie>>, middle: seq<Movie>, after: seq<Movie>)
    requires before + batch == middle && middle + Flatten(rest) == after
    ensures before + Flatten([batch] + rest) == after
  {
    assert ([batch] + rest)[1..] == rest;
  }

  /** The `while keep_going` loop from state `s`, with the prompt answers
      still to come. What it shows and how it ends are described by the
      lemmas below. */
  function Loop(fetch: Fetcher, movieType: string, releaseYear: Option<int>,
                s: BrowseState, answers: seq<string>): (r: BrowseRun)
    requires Valid(s)
    ensures Valid(r.final) && Grows(s, r.final)
    ensures |r.batches| <= |answers| + 1
    decreases |answers|
  {
    var round := ShowRound(fetch, movieType, releaseYear, s);
    var shown := if round.rendered then [round.shown] else [];
    if round.stop.Some? then BrowseRun(shown, round.state, round.stop.value)
    else if |answers| == 0 then BrowseRun(shown, round.state, EndOfInput)
    else if !Continues(answers[0]) then BrowseRun(shown, round.state, Declined)
    else
      var rest := Loop(fetch, movieType, releaseYear, round.state, answers[1..]);
      BrowseRun([round.shown] + rest.batches, rest.final, rest.outcome)
  }

  /** Together with what was shown before `s`, the batches the loop shows
      are exactly the buffer up to the final cursor: nothing repeated,
      nothing skipped, in fetch order. */
  lemma {:induction false} LoopShowsBufferInOrder(fetch: Fetcher, movieType: string, releaseYear: Option<int>,
                                                  s: BrowseState, answers: seq<string>)
    requires Valid(s)
    ensures var r := Loop(fetch, movieType, releaseYear, s, answers);
      s.cache[..s.cursor] + Flatten(r.batches) == r.final.cache[..r.final.cursor]
    decreases |answers|
  {
    var round := ShowRound(fetch, movieType, releaseYear, s);
    var middle := round.state.cache[..round.state.cursor];
    FlattenCons(s.cache[..s.cursor], round.shown, [], middle, middle);
    if round.stop.None? && |answers| > 0 && Continues(answers[0]) {
      var rest := Loop(fetch, movieType, releaseYear, round.state, answers[1..]);
      LoopShowsBufferInOrder(fetch, movieType, releaseYear, round.state, answers[1..]);
      FlattenCons(s.cache[..s.cursor], round.shown, rest.batches, middle, rest.final.cache[..rest.final.cursor]);
    }
  }

  /** Every batch holds at most five movies. */
  predicate SmallBatches(batches: seq<seq<Movie>>) {
    forall k :: 0 <= k < |batches| ==> |batches[k]| <= BatchSize
  }

  lemma SmallBatchesCons(batch: seq<Movie>, rest: seq<seq<Movie>>)
    requires |batch| <= BatchSize && SmallBatches(rest)
    ensures SmallBatches([batch] + rest)
  {
    var batches := [batch] + rest;
    assert forall k :: 1 <= k < |batches| ==> batches[k] == rest[k - 1];
  }

  /** No batch holds more than five movies. */
  lemma {:induction false} LoopBatchesAreSmall(fetch: Fetcher, movieType: string, releaseYear: Option<int>,
                                               s: BrowseState, answers: seq<string>)
    requires Valid(s)
    ensures SmallBatches(Loop(fetch, movieType, releaseYear, s, answers).batches)
    decreases |answers|
  {
    var round := ShowRound(fetch, movieType, releaseYear, s);
    if round.stop.None? && |answers| > 0 && Continues(answers[0]) {
      var rest := Loop(fetch, movieType, releaseYear, round.state, answers[1..]);
      LoopBatchesAreSmall(fetch, movieType, releaseYear, round.state, answers[1..]);
      SmallBatchesCons(round.shown, rest.batches);
    }
  }

  /** The first `n - 1` answers all pass the test `yes`. */
  predicate ContinuedBefore(yes: string -> bool, answers: seq<string>, n: nat) {
    forall k :: 0 <= k < n - 1 && k < |answers| ==> yes(answers[k])
  }

  lemma ContinuedBeforeCons(yes: string -> bool, answers: seq<string>, n: nat)
    requires |answers| >= 1 && yes(answers[0])
    requires ContinuedBefore(yes, answers[1..], n)
    ensures ContinuedBefore(yes, answers, n + 1)
  {
    assert forall k :: 1 <= k < |answers| ==> answers[k] == answers[1..][k - 1];
  }

  /** How a run relates to the answers given, `yes` being the test that
      an answer continues: every batch but the last was followed by a
      continuing answer; the loop stops at the first other answer, and
      runs out of answers only after a batch. */
  predicate FollowsAnswers(yes: string -> bool, answers: seq<string>, r: BrowseRun) {
    && ContinuedBefore(yes, answers, |r.batches|)
    && (r.outcome.Declined? ==> 1 <= |r.batches| <= |answers| && !yes(answers[|r.batches| - 1]))
    && (r.outcome.EndOfInput? ==> |r.batches| == |answers| + 1)
  }

  /** A continuing first answer followed by a run that follows the
      remaining answers gives a run that follows them all. */
  lemma FollowsAnswersCons(yes: string -> bool, answers: seq<string>, shown: seq<Movie>, rest: BrowseRun)
    requires |answers| >= 1 && yes(answers[0])
    requires FollowsAnswers(yes, answers[1..], rest)
    ensures FollowsAnswers(yes, answers, BrowseRun([shown] + rest.batches, rest.final, rest.outcome))
  {
    ContinuedBeforeCons(yes, answers, |rest.batches|);
    if rest.outcome.Declined? {
      assert answers[|rest.batches|] == answers[1..][|rest.batches| - 1];
    }
  }

  /** The loop asks for an answer after every batch and acts on it:
      `y` (any case, any surrounding whitespace) goes on, anything else
      stops, and no answer left stops too. */
  lemma {:induction false} LoopFollowsAnswers(fetch: Fetcher, movieType: string, releaseYear: Option<int>,
                                              s: BrowseState, answers: seq<string>)
    requires Valid(s)
    ensures FollowsAnswers(Continues, answers, Loop(fetch, movieType, releaseYear, s, answers))
    decreases |answers|
  {
    var round := ShowRound(fetch, movieType, releaseYear, s);
    if round.stop.None? && |answers| > 0 && Continues(answers[0]) {
      var rest := Loop(fetch, movieType, releaseYear, round.state, answers[1..]);
      LoopFollowsAnswers(fetch, movieType, releaseYear, round.state, answers[1..]);
      FollowsAnswersCons(Continues, answers, round.shown, rest);
    }
  }

  /** The two quiet endings happen only once the catalog is exhausted. */
  lemma {:induction false} LoopEndsExhausted(fetch: Fetcher, movieType: string, releaseYear: Option<int>,
                                             s: BrowseState, answers: seq<string>)
    requires Valid(s)
    ensures var r := Loop(fetch, movieType, releaseYear, s, answers);
      r.outcome.NoMoreMovies? || r.outcome.NoFurtherPage? ==> Exhausted(r.final)
    decreases |answers|
  {
    var round := ShowRound(fetch, movieType, releaseYear, s);
    if round.stop.None? && |answers| > 0 && Continues(answers[0]) {
      LoopEndsExhausted(fetch, movieType, releaseYear, round.state, answers[1..]);
    }
  }

  /** Conversely, when the batch just rendered used up the last page, the
      pre-fetch answers false and the loop breaks without asking. */
  lemma LoopStopsAfterLastBatch(fetch: Fetcher, movieType: string, releaseYear: Option<int>,
                                s: BrowseState, answers: seq<string>)
    requires Valid(s)
    requires FirstCheck(fetch, movieType, releaseYear, s).Ok? && FirstCheck(fetch, movieType, releaseYear, s).value.available
    requires Exhausted(TakeBatch(FirstCheck(fetch, movieType, releaseYear, s).value.state).1)
    ensures var taken := TakeBatch(FirstCheck(fetch, movieType, releaseYear, s).value.state);
      Loop(fetch, movieType, releaseYear, s, answers) == BrowseRun([taken.0], taken.1, NoFurtherPage)
  {
  }

  /** With a known category (or a year) and a network that always answers,
      no request raises, so the command never ends with an exception. */
  lemma {:induction false} NoFailureWhenFetchesSucceed(fetch: Fetcher, movieType: string, releaseYear: Option<int>,
                                                       s: BrowseState, answers: seq<string>)
    requires Valid(s)
    requires releaseYear.Some? || movieType in Endpoints
    requires forall req :: fetch(req).Ok?
    ensures !Loop(fetch, movieType, releaseYear, s, answers).outcome.Failed?
    decreases |answers|
  {
    var round := ShowRound(fetch, movieType, releaseYear, s);
    RoundNeverFails(fetch, movieType, releaseYear, s);
    if round.stop.None? && |answers| > 0 && Continues(answers[0]) {
      NoFailureWhenFetchesSucceed(fetch, movieType, releaseYear, round.state, answers[1..]);
    }
  }

  /** A pass of the loop body stops with an exception only when a fetch
      raised. */
  lemma RoundNeverFails(fetch: Fetcher, movieType: string, releaseYear: Option<int>, s: BrowseState)
    requires Valid(s)
    requires releaseYear.Some? || movieType in Endpoints
    requires forall req :: fetch(req).Ok?
    ensures var r := ShowRound(fetch, movieType, releaseYear, s);
      r.stop.Some? ==> !r.stop.value.Failed?
  {
    var first := FirstCheck(fetch, movieType, releaseYear, s);
    FetchSucceeds(fetch, movieType, s.currentPage, releaseYear);
    if first.Ok? && first.value.available {
      var taken := TakeBatch(first.value.state).1;
      FetchSucceeds(fetch, movieType, taken.currentPage, releaseYear);
    }
  }

  lemma FetchSucceeds(fetch: Fetcher, movieType: string, page: int, releaseYear: Option<int>)
    requires releaseYear.Some? || movieType in Endpoints
    requires forall req :: fetch(req).Ok?
    ensures FetchPage(fetch, movieType, page, releaseYear).Ok?
  {
  }

  /** `A_Main(movie_type, release_year)`: the batches shown, concatenated,
      are the buffer's prefix up to the cursor, in fetch order. */
  function BrowseSession(fetch: Fetcher, movieType: string, releaseYear: Option<int>,
                         answers: seq<string>): (r: BrowseRun)
    ensures Valid(r.final)
    ensures Flatten(r.batches) == r.final.cache[..r.final.cursor]
    ensures |r.batches| <= |answers| + 1
  {
    LoopShowsBufferInOrder(fetch, movieType, releaseYear, Init(), answers);
    Loop(fetch, movieType, releaseYear, Init(), answers)
  }

  /** A session resumed from an exhausted state shows nothing and ends at
      once: no data appears later. */
  lemma ExhaustedLoopShowsNothing(fetch: Fetcher, movieType: string, releaseYear: Option<int>,
                                  s: BrowseState, answers: seq<string>)
    requires Valid(s) && Exhausted(s)
    ensures Loop(fetch, movieType, releaseYear, s, answers) == BrowseRun([], s, NoMoreMovies)
  {
  }
}

=== FILE: catalog.dfy ===
/** The catalog client: movie records, result pages, and the choice between
    the two request shapes (`movie_request` in tmdb_cli/mov_api.py). The
    HTTP call itself is an oracle supplied by the caller. */
module Catalog {
  import opened Wrappers
  import opened Errors
  import opened Text

  /** One movie record as the catalog returns it. `reason` is the key the
      recommender adds to its copies; catalog records arrive without it. */
  datatype Movie = Movie(
    id: int,
    title: string,
    releaseDate: string,
    genreIds: seq<int>,
    voteAverage: real,
    overview: string,
    reason: Option<string>)

  /** A decoded response: the page's `results` and its `total_pages`. */
  datatype Page = Page(results: seq<Movie>, totalPages: int)

  /** The browsing categories and the path segment each one requests. */
  const Endpoints: map<string, string> := map[
    "playing" := "now_playing",
    "popular" := "popular",
    "upcoming" := "upcoming",
    "top" := "top_rated"]

  /** The two request shapes: a category listing, or the discover query
      filtered by release year and sorted by popularity. */
  datatype Request =
    | ByCategory(path: string, page: int)
    | DiscoverByYear(year: int, page: int)

  /** Choose the request for one page. Without a year the category must be
      a key of `Endpoints` (otherwise the lookup raises `KeyError`); with a
      year the category plays no part. */
  function MovieRequest(movieType: string, page: int, releaseYear: Option<int>): (r: Result<Request, Error>)
    ensures releaseYear.None? ==> (r.Ok? <==> movieType in Endpoints)
    ensures r.Err? ==> r.error == UnknownCategory(movieType)
    ensures r.Ok? ==> r.value.page == page
    ensures releaseYear.Some? ==> r.Ok? && r.value.DiscoverByYear? && r.value.year == releaseYear.value
    ensures releaseYear.None? && movieType in Endpoints ==> r == Ok(ByCategory(Endpoints[movieType], page))
  {
    match releaseYear
    case None =>
      if movieType in Endpoints then Ok(ByCategory(Endpoints[movieType], page))
      else Err(UnknownCategory(movieType))
    case Some(year) => Ok(DiscoverByYear(year, page))
  }

  /** With a year, two different categories produce the same request. */
  lemma YearQueryIgnoresCategory(type1: string, type2: string, page: int, year: int)
    ensures MovieRequest(type1, page, Some(year)) == MovieRequest(type2, page, Some(year))
  {
  }

  const ApiBase: string := "https://api.themoviedb.org/3/"

  /** The URL text of a request. */
  function Url(req: Request): (r: string)
    ensures |ApiBase| <= |r| && r[..|ApiBase|] == ApiBase
    ensures req.ByCategory? ==>
      var tail := "&page=" + IntToString(req.page);
      |tail| <= |r| && r[|r| - |tail|..] == tail
    ensures req.ByCategory? ==>
      var segment := "movie/" + req.path + "?";
      |ApiBase| + |segment| <= |r| && r[|ApiBase|..|ApiBase| + |segment|] == segment
    ensures req.DiscoverByYear? ==>
      var segment := "discover/movie?";
      |ApiBase| + |segment| <= |r| && r[|ApiBase|..|ApiBase| + |segment|] == segment
    ensures req.DiscoverByYear? ==>
      var tail := "&primary_release_year=" + IntToString(req.year) + "&sort_by=popularity.desc";
      |tail| <= |r| && r[|r| - |tail|..] == tail
    ensures req.DiscoverByYear? ==>
      var tail := "&page=" + IntToString(req.page)
                  + ("&primary_release_year=" + IntToString(req.year) + "&sort_by=popularity.desc");
      |tail| <= |r| && r[|r| - |tail|..] == tail
  {
    match req
    case ByCategory(path, page) =>
      UrlText("movie/" + path + "?", "language=en-US", "&page=" + IntToString(page))
    case DiscoverByYear(year, page) =>
      var filters := "&primary_release_year=" + IntToString(year) + "&sort_by=popularity.desc";
      var r := UrlText("discover/movie?", "include_adult=false&include_video=false&language=en-US",
                       "&page=" + IntToString(page) + filters);
      SuffixOfSuffix(r, "&page=" + IntToString(page), filters);
      r
  }

  /** The API base, then a path segment, a query and the query's tail. */
  function UrlText(segment: string, query: string, tail: string): (r: string)
    ensures |ApiBase| + |segment| <= |r| && r[..|ApiBase|] == ApiBase
    ensures r[|ApiBase|..|ApiBase| + |segment|] == segment
    ensures |tail| <= |r| && r[|r| - |tail|..] == tail
  {
    var rest := segment + query;
    AppendEnds(ApiBase, rest, tail);
    AppendMiddle(ApiBase, segment, query + tail);
    AppendAssoc3(ApiBase, rest, tail, segment, query);
    ApiBase + rest + tail
  }

  /** The end of a text's ending is an ending of the text. */
  lemma SuffixOfSuffix(r: string, a: string, b: string)
    requires |a + b| <= |r| && r[|r| - |a + b|..] == a + b
    ensures |b| <= |r| && r[|r| - |b|..] == b
  {
    assert r[|r| - |b|..] == (a + b)[|a|..];
  }

  /** Different category paths give different URLs, whatever the pages:
      the URL names the category it lists. */
  lemma CategoryUrlsDiffer(path1: string, page1: int, path2: string, page2: int)
    requires path1 != path2 && '?' !in path1 && '?' !in path2
    ensures Url(ByCategory(path1, page1)) != Url(ByCategory(path2, page2))
  {
    SegmentsDiffer(Url(ByCategory(path1, page1)), Url(ByCategory(path2, page2)), |ApiBase|, path1, path2);
  }

  /** Without a year, two different categories request different URLs. */
  lemma CategoriesGetDistinctUrls(type1: string, type2: string, page: int)
    requires type1 in Endpoints && type2 in Endpoints && type1 != type2
    ensures MovieRequest(type1, page, None).Ok? && MovieRequest(type2, page, None).Ok?
    ensures Url(MovieRequest(type1, page, None).value) != Url(MovieRequest(type2, page, None).value)
  {
    EndpointsDistinct(type1, type2);
    CategoryUrlsDiffer(Endpoints[type1], page, Endpoints[type2], page);
  }

  /** The endpoint table maps different categories to different path
      segments, none holding a `?`. */
  lemma EndpointsDistinct(type1: string, type2: string)
    requires type1 in Endpoints && type2 in Endpoints && type1 != type2
    ensures Endpoints[type1] != Endpoints[type2]
    ensures '?' !in Endpoints[type1] && '?' !in Endpoints[type2]
  {
  }

  /** Two texts holding `movie/<path>?` for different question-mark-free
      paths at the same offset differ. */
  lemma SegmentsDiffer(u1: string, u2: string, b: nat, path1: string, path2: string)
    requires path1 != path2 && '?' !in path1 && '?' !in path2
    requires b + |"movie/" + path1 + "?"| <= |u1| && u1[b..b + |"movie/" + path1 + "?"|] == "movie/" + path1 + "?"
    requires b + |"movie/" + path2 + "?"| <= |u2| && u2[b..b + |"movie/" + path2 + "?"|] == "movie/" + path2 + "?"
    ensures u1 != u2
  {
    var s1 := "movie/" + path1 + "?";
    var s2 := "movie/" + path2 + "?";
    if |path1| == |path2| {
      var k :| 0 <= k < |path1| && path1[k] != path2[k];
      assert u1[b + 6 + k] == s1[6 + k] == path1[k];
      assert u2[b + 6 + k] == s2[6 + k] == path2[k];
    } else if |path1| < |path2| {
      assert u1[b + 6 + |path1|] == s1[6 + |path1|] == '?';
      assert u2[b + 6 + |path1|] == s2[6 + |path1|] == path2[|path1|];
    } else {
      assert u2[b + 6 + |path2|] == s2[6 + |path2|] == '?';
      assert u1[b + 6 + |path2|] == s1[6 + |path2|] == path1[|path2|];
    }
  }

  /** `a + b + c` starts with `a` and ends with `c`. */
  lemma AppendEnds(a: string, b: string, c: string)
    ensures (a + b + c)[..|a|] == a
    ensures (a + b + c)[|a + b + c| - |c|..] == c
  {
    var r := a + b + c;
    assert r[..|a|] == a;
    assert r[|r| - |c|..] == c;
  }

  /** In `a + b + c`, `b` stands right after `a`. */
  lemma AppendMiddle(a: string, b: string, c: string)
    ensures (a + b + c)[|a|..|a| + |b|] == b
  {
    var r := a + b + c;
    assert r[|a|..|a| + |b|] == b;
  }

  lemma AppendAssoc3(a: string, rest: string, tail: string, segment: string, query: string)
    requires rest == segment + query
    ensures a + rest + tail == a + segment + (query + tail)
  {
  }

  /** The network: answers a request with a page, or with the
      `RuntimeError` that transport or decoding failures become. */
  type Fetcher = Request -> Result<Page, Error>

  /** `movie_request(movie_type, page, release_year)`: build the request,
      then ask the network for it. */
  function FetchPage(fetch: Fetcher, movieType: string, page: int, releaseYear: Option<int>): (r: Result<Page, Error>)
    ensures releaseYear.None? && movieType !in Endpoints ==> r == Err(UnknownCategory(movieType))
    ensures releaseYear.Some? ==> r == fetch(DiscoverByYear(releaseYear.value, page))
    ensures releaseYear.None? && movieType in Endpoints ==> r == fetch(ByCategory(Endpoints[movieType], page))
  {
    var req :- MovieRequest(movieType, page, releaseYear);
    fetch(req)
  }
}

=== FILE: errors.dfy ===
/** The exceptions the modelled code raises, one constructor per kind. */
module Errors {

  datatype Error =
      /** `KeyError` from looking up an unknown category in the endpoint table. */
    | UnknownCategory(movieType: string)
      /** `RuntimeError("TMDB request failed ...")` or invalid JSON from the catalog. */
    | FetchFailed(cause: string)
      /** `RuntimeError` raised by `recommend` when no preference is saved. */
    | NoPreferences
      /** `RuntimeError` raised by `recommend` when every shortlist page failed or was empty. */
    | EmptyShortlist
      /** `RuntimeError` raised when the ranking response is not valid JSON. */
    | InvalidRankingJson
      /** `TypeError` from iterating over a JSON number, boolean or null. */
    | RankingNotIterable
      /** `TypeError`/`ValueError` from `int()` applied to a pick's `"id"`. */
    | BadPickId
      /** `KeyError` from naming a saved genre id that the taxonomy lacks. */
    | UnknownGenre(id: int)
}

=== FILE: genres.dfy ===
/** The genre taxonomy: the id-to-name dict fetched once at start-up, kept in
    the dict's insertion order because menu numbers and name matching
    depend on it. */
module Genres {
  import opened Wrappers
  import opened Text

  datatype Genre = Genre(id: int, name: string)

  /** The taxonomy as an ordered list of entries. */
  type Taxonomy = seq<Genre>

  /** A dict never holds the same key twice. */
  predicate DistinctIds(t: Taxonomy) {
    forall i, j :: 0 <= i < j < |t| ==> t[i].id != t[j].id
  }

  /** The dict's keys. */
  function Ids(t: Taxonomy): (r: set<int>)
    ensures forall i :: 0 <= i < |t| ==> t[i].id in r
    ensures forall id :: id in r ==> exists i :: 0 <= i < |t| && t[i].id == id
  {
    set i | 0 <= i < |t| :: t[i].id
  }

  /** `movieGenres.get(id)`: the name stored under `id`, if any. */
  function Lookup(t: Taxonomy, id: int): (r: Option<string>)
    ensures r.Some? <==> id in Ids(t)
    ensures r.Some? ==> exists i :: 0 <= i < |t| && t[i] == Genre(id, r.value)
  {
    if |t| == 0 then None
    else if t[0].id == id then Some(t[0].name)
    else
      var r := Lookup(t[1..], id);
      assert forall i :: 0 <= i < |t| - 1 ==> t[1..][i] == t[i + 1];
      r
  }

  /** In a well-formed taxonomy the entry at position `i` is what a lookup
      of its id finds. */
  lemma {:induction false} LookupEntry(t: Taxonomy, i: int)
    requires DistinctIds(t)
    requires 0 <= i < |t|
    ensures Lookup(t, t[i].id) == Some(t[i].name)
    decreases |t|
  {
    if i > 0 {
      LookupEntry(t[1..], i - 1);
    }
  }

  /** `movieGenres.get(gid, str(gid))`: the genre's name, or the id written
      in decimal when the taxonomy lacks it. */
  function Label(t: Taxonomy, gid: int): (r: string)
    ensures gid in Ids(t) ==> Some(r) == Lookup(t, gid)
    ensures gid !in Ids(t) ==> ParseInt(r) == Some(gid)
  {
    match Lookup(t, gid)
    case Some(name) => name
    case None => IntToStringRoundTrip(gid); IntToString(gid)
  }
}

=== FILE: json.dfy ===
/** Values produced by Python's `json.loads`, and the conversions the ranking
    code applies to them (`int(...)`, `str(...)`, iteration). */
module Json {
  import opened Wrappers
  import opened Errors
  import opened Text

  /** A decoded JSON document. Integer literals decode to `JInt`, other
      numbers to `JFloat`; an object is a Python dict, so keys are unique. */
  datatype Value =
    | JNull
    | JBool(b: bool)
    | JInt(i: int)
    | JFloat(f: real)
    | JString(s: string)
    | JArray(items: seq<Value>)
    | JObject(fields: map<string, Value>)

  /** `int(f)` for a float: rounds toward zero. */
  function TruncateReal(f: real): (r: int)
    ensures f >= 0.0 ==> 0 <= r && r as real <= f < r as real + 1.0
    ensures f < 0.0 ==> r <= 0 && r as real - 1.0 < f <= r as real
  {
    if f >= 0.0 then f.Floor else -((-f).Floor)
  }

  /** Python's `int(v)`: booleans count as 0 and 1, floats are truncated,
      strings are parsed as decimal text; `None`, lists and dicts raise a
      `TypeError` and unparsable strings a `ValueError`, both `BadPickId`. */
  function PyInt(v: Value): (r: Result<int, Error>)
    ensures r.Err? ==> r.error == BadPickId
    ensures r.Ok? <==> v.JBool? || v.JInt? || v.JFloat? || (v.JString? && ParseInt(v.s).Some?)
    ensures v.JInt? ==> r == Ok(v.i)
    ensures v.JBool? ==> r == Ok(if v.b then 1 else 0)
    ensures v.JFloat? ==> r == Ok(TruncateReal(v.f))
    ensures v.JString? && ParseInt(v.s).Some? ==> r == Ok(ParseInt(v.s).value)
  {
    match v
    case JBool(b) => Ok(if b then 1 else 0)
    case JInt(i) => Ok(i)
    case JFloat(f) => Ok(TruncateReal(f))
    case JString(s) =>
      (match ParseInt(s)
       case Some(n) => Ok(n)
       case None => Err(BadPickId))
    case _ => Err(BadPickId)
  }

  /** An id sent as decimal text coerces to the same id as the number. */
  lemma PyIntOfDecimalText(n: int)
    ensures PyInt(JString(IntToString(n))) == PyInt(JInt(n))
  {
    IntToStringRoundTrip(n);
  }

  /** Python's `str(v)` for the scalar values: strings are kept, `None`,
      `True` and `False` print by name and integers in decimal. */
  function PyStr(v: Value): (r: string)
    ensures v.JString? ==> r == v.s
    ensures v.JInt? ==> ParseInt(r) == Some(v.i)
    ensures v.JNull? ==> r == "None"
    ensures v.JBool? ==> r == if v.b then "True" else "False"
  {
    match v
    case JString(s) => s
    case JNull => "None"
    case JBool(b) => if b then "True" else "False"
    case JInt(i) => IntToStringRoundTrip(i); IntToString(i)
    case _ => ""
  }

  /** The elements a Python `for` loop visits in a decoded document: the
      items of an array, the one-character strings of a string, the keys
      of an object. None of the latter two is an object, so the keys are
      not enumerated here. Numbers, booleans and `None` are not iterable. */
  function Iterate(v: Value): (r: Result<seq<Value>, Error>)
    ensures r.Err? <==> v.JNull? || v.JBool? || v.JInt? || v.JFloat?
    ensures r.Err? ==> r.error == RankingNotIterable
    ensures v.JArray? ==> r == Ok(v.items)
    ensures r.Ok? && !v.JArray? ==> forall k :: 0 <= k < |r.value| ==> !r.value[k].JObject?
  {
    match v
    case JArray(items) => Ok(items)
    case JString(s) => Ok(seq(|s|, k requires 0 <= k < |s| => JString([s[k]])))
    case JObject(_) => Ok([])
    case _ => Err(RankingNotIterable)
  }
}

=== FILE: prefs.dfy ===
/** The preference store (tmdb_cli/user_prefs.py): a set of genre ids kept
    in a file as a sorted JSON list, edited by id, by name or by menu
    number, and listed by name. The file is modelled by its decoded
    contents; reading and writing it are the identity on those. */
module Prefs {
  import opened Wrappers
  import opened Errors
  import opened Text
  import opened Genres

  // ---------------------------------------------------------------------------
  // Persistence: `load_prefs` and `save_prefs`
  // ---------------------------------------------------------------------------

  /** What the preferences file holds: nothing at all, text that is not
      JSON, a JSON number, boolean or null (which `set(...)` rejects with
      `TypeError`), or a list of ids. */
  datatype PrefsFile = NoFile | Undecodable | WrongType | Saved(ids: seq<int>)

  /** `load_prefs()`: the saved list as a set; a missing or corrupt file,
      or one holding a number, boolean or null, loads as the empty set. */
  function LoadPrefs(f: PrefsFile): (r: set<int>)
    ensures f.Saved? ==> forall x :: x in r <==> x in f.ids
    ensures !f.Saved? ==> r == {}
  {
    if f.Saved? then set x | x in f.ids else {}
  }

  predicate StrictlyIncreasing(xs: seq<int>) {
    forall i, j :: 0 <= i < j < |xs| ==> xs[i] < xs[j]
  }

  /** A set with no members is the empty set. */
  lemma NoMembersIsEmpty(s: set<int>)
    ensures (forall x :: x !in s) ==> s == {}
  {
    if forall x :: x !in s {
      assert forall x :: x in s <==> x in {};
    }
  }

  lemma {:induction false} MinExists(s: set<int>)
    requires s != {}
    ensures exists m :: m in s && forall x :: x in s ==> m <= x
    decreases |s|
  {
    NoMembersIsEmpty(s);
    var y :| y in s;
    var rest := s - {y};
    NoMembersIsEmpty(rest);
    var m := y;
    if rest != {} {
      MinExists(rest);
      m :| m in rest && forall x :: x in rest ==> m <= x;
    }
    LowerBoundStep(s, y, rest, m);
    var least := if y < m then y else m;
    assert least in s && forall x :: x in s ==> least <= x;
  }

  /** A bound below everything but `y` and `y` itself bounds the whole set;
      when the bound is a member, the smaller of the two is the least. */
  lemma LowerBoundStep(s: set<int>, y: int, rest: set<int>, m: int)
    requires y in s && m in s && rest == s - {y}
    requires forall x :: x in rest ==> m <= x
    ensures var least := if y < m then y else m;
      least in s && forall x :: x in s ==> least <= x
  {
    forall x | x in s
      ensures (if y < m then y else m) <= x
    {
      assert x == y || x in rest;
    }
  }

  /** The least element of a non-empty set. */
  function Min(s: set<int>): (m: int)
    requires s != {}
    ensures m in s && forall x :: x in s ==> m <= x
  {
    MinExists(s);
    var m :| m in s && forall x :: x in s ==> m <= x;
    m
  }

  /** `sorted(s)`: the elements of `s` in ascending order. */
  function Sorted(s: set<int>): (r: seq<int>)
    ensures StrictlyIncreasing(r)
    ensures forall x :: x in r <==> x in s
    ensures |r| == |s|
    decreases |s|
  {
    if s == {} then []
    else
      var m := Min(s);
      var rest := Sorted(s - {m});
      assert forall k :: 0 <= k < |rest| ==> m < rest[k];
      [m] + rest
  }

  /** `save_prefs(ids)`: writes the ids as an ascending list. */
  function SavePrefs(s: set<int>): (f: PrefsFile)
    ensures f.Saved? && StrictlyIncreasing(f.ids) && |f.ids| == |s|
  {
    Saved(Sorted(s))
  }

  /** Loading what was saved gives the same set back. */
  lemma LoadSave(s: set<int>)
    ensures LoadPrefs(SavePrefs(s)) == s
  {
  }

  /** The first element of an ascending list is its least. */
  lemma HeadIsLeast(xs: seq<int>)
    requires StrictlyIncreasing(xs) && |xs| > 0
    ensures forall x :: x in xs ==> xs[0] <= x
  {
    forall x | x in xs
      ensures xs[0] <= x
    {
      var k :| 0 <= k < |xs| && xs[k] == x;
      assert k == 0 || xs[0] < xs[k];
    }
  }

  /** Dropping the head of an ascending list drops exactly that value. */
  lemma TailMembers(xs: seq<int>)
    requires StrictlyIncreasing(xs) && |xs| > 0
    ensures forall x :: x in xs[1..] <==> x in xs && x != xs[0]
  {
    forall x
      ensures x in xs[1..] <==> x in xs && x != xs[0]
    {
      if x in xs[1..] {
        var k :| 0 <= k < |xs| - 1 && xs[1..][k] == x;
        assert xs[k + 1] == x && xs[0] < xs[k + 1];
      }
      if x in xs && x != xs[0] {
        var k :| 0 <= k < |xs| && xs[k] == x;
        assert xs[1..][k - 1] == x;
      }
    }
  }

  /** Holds for every sequence; used to put the head of a sequence in view. */
  lemma HeadIsMember(xs: seq<int>)
    ensures |xs| > 0 ==> xs[0] in xs
  {
  }

  /** Two ascending lists without repeats holding the same values are equal:
      the sorted form of a set is unique. */
  lemma {:induction false} IncreasingUnique(a: seq<int>, b: seq<int>)
    requires StrictlyIncreasing(a) && StrictlyIncreasing(b)
    requires forall x :: x in a <==> x in b
    ensures a == b
    decreases |a|
  {
    HeadIsMember(a);
    HeadIsMember(b);
    if |a| > 0 && |b| > 0 {
      HeadIsLeast(a);
      HeadIsLeast(b);
      assert a[0] == b[0];
      TailMembers(a);
      TailMembers(b);
      IncreasingUnique(a[1..], b[1..]);
      assert a == [a[0]] + a[1..];
      assert b == [b[0]] + b[1..];
    }
  }

  /** An ascending list without repeats is the sorted form of its own set. */
  lemma SortedOfIncreasing(xs: seq<int>)
    requires StrictlyIncreasing(xs)
    ensures Sorted(set x | x in xs) == xs
  {
    IncreasingUnique(Sorted(set x | x in xs), xs);
  }

  /** A file written by `save_prefs` is written again, unchanged, after a
      load: the sorted list is the one form a set is stored in. */
  lemma SaveLoad(xs: seq<int>)
    requires StrictlyIncreasing(xs)
    ensures SavePrefs(LoadPrefs(Saved(xs))) == Saved(xs)
  {
    assert LoadPrefs(Saved(xs)) == set x | x in xs;
    SortedOfIncreasing(xs);
  }

  // ---------------------------------------------------------------------------
  // `list_prefs`
  // ---------------------------------------------------------------------------

  /** `[movieGenres[i] for i in ids]`: indexing raises `KeyError` at the
      first id the taxonomy lacks. */
  function NamesOf(ids: seq<int>, t: Taxonomy): (r: Result<seq<string>, Error>)
    ensures r.Ok? <==> forall k :: 0 <= k < |ids| ==> ids[k] in Ids(t)
    ensures r.Ok? ==> |r.value| == |ids| && forall k :: 0 <= k < |ids| ==> Some(r.value[k]) == Lookup(t, ids[k])
    ensures r.Err? ==> exists k :: 0 <= k < |ids| && r.error == UnknownGenre(ids[k]) && ids[k] !in Ids(t)
  {
    if ids == [] then Ok([])
    else
      match Lookup(t, ids[0])
      case None => Err(UnknownGenre(ids[0]))
      case Some(name) =>
        var rest := NamesOf(ids[1..], t);
        if rest.Err? then
          assert forall k :: 0 <= k < |ids| - 1 ==> ids[1..][k] == ids[k + 1];
          rest
        else
          Ok([name] + rest.value)
  }

  /** `list_prefs()`: the names of the saved genres in ascending id order;
      a saved id the taxonomy lacks raises `KeyError`. */
  function ListPrefs(f: PrefsFile, t: Taxonomy): (r: Result<seq<string>, Error>)
    ensures r.Ok? <==> LoadPrefs(f) <= Ids(t)
    ensures r.Ok? ==> |r.value| == |LoadPrefs(f)|
    ensures r.Ok? ==> forall k :: 0 <= k < |r.value| ==> Some(r.value[k]) == Lookup(t, Sorted(LoadPrefs(f))[k])
    ensures r.Err? ==> r.error.UnknownGenre? && r.error.id in LoadPrefs(f) - Ids(t)
  {
    var ids := Sorted(LoadPrefs(f));
    var r := NamesOf(ids, t);
    assert r.Ok? <==> LoadPrefs(f) <= Ids(t) by {
      if !r.Ok? {
        var k :| 0 <= k < |ids| && ids[k] !in Ids(t);
        assert ids[k] in LoadPrefs(f);
      }
    }
    r
  }

  // ---------------------------------------------------------------------------
  // `add_prefs` and `remove_prefs`
  // ---------------------------------------------------------------------------

  /** An argument of `add_prefs`/`remove_prefs`: an `int` id or a `str` name. */
  datatype PrefItem = ById(id: int) | ByName(name: string)

  /** The id of the first genre, in taxonomy order, whose name equals
      `name` ignoring case. */
  function FirstNameMatch(t: Taxonomy, name: string): (r: Option<int>)
    ensures r.Some? <==> exists k :: 0 <= k < |t| && Lower(t[k].name) == Lower(name)
    ensures r.Some? ==> exists k :: 0 <= k < |t| && t[k].id == r.value && Lower(t[k].name) == Lower(name)
                                      && forall j :: 0 <= j < k ==> Lower(t[j].name) != Lower(name)
  {
    if t == [] then None
    else if Lower(t[0].name) == Lower(name) then Some(t[0].id)
    else
      var r := FirstNameMatch(t[1..], name);
      assert forall k :: 0 <= k < |t| - 1 ==> t[1..][k] == t[k + 1];
      if r.Some? then
        var k :| 0 <= k < |t| - 1 && t[1..][k].id == r.value && Lower(t[1..][k].name) == Lower(name)
                 && forall j :: 0 <= j < k ==> Lower(t[1..][j].name) != Lower(name);
        assert forall j :: 0 <= j < k + 1 ==> Lower(t[j].name) != Lower(name) by {
          forall j | 0 <= j < k + 1
            ensures Lower(t[j].name) != Lower(name)
          {
            if j > 0 {
              assert t[j] == t[1..][j - 1];
            }
          }
        }
        r
      else
        r
  }

  /** The id `add_prefs` adds for one item: a known id, or the first
      case-insensitive name match; unknown items add nothing. */
  function AddTarget(item: PrefItem, t: Taxonomy): (r: Option<int>)
    ensures r.Some? ==> r.value in Ids(t)
    ensures item.ById? ==> r == (if item.id in Ids(t) then Some(item.id) else None)
    ensures item.ByName? ==> r == FirstNameMatch(t, item.name)
  {
    match item
    case ById(id) => if id in Ids(t) then Some(id) else None
    case ByName(name) => FirstNameMatch(t, name)
  }

  /** The id `remove_prefs` discards for one item: any id at all, or the
      first case-insensitive name match. */
  function RemoveTarget(item: PrefItem, t: Taxonomy): (r: Option<int>)
    ensures item.ById? ==> r == Some(item.id)
    ensures item.ByName? ==> r == FirstNameMatch(t, item.name)
  {
    match item
    case ById(id) => Some(id)
    case ByName(name) => FirstNameMatch(t, name)
  }

  /** The loop of `add_prefs`: the old set plus exactly the ids the items
      name; no other id is touched. */
  function AddAll(current: set<int>, items: seq<PrefItem>, t: Taxonomy): (r: set<int>)
    ensures current <= r && r - current <= Ids(t)
    ensures forall x :: x in r <==> x in current || exists k :: 0 <= k < |items| && AddTarget(items[k], t) == Some(x)
    decreases |items|
  {
    if items == [] then current
    else
      var next := match AddTarget(items[0], t) case Some(id) => current + {id} case None => current;
      var r := AddAll(next, items[1..], t);
      assert forall k :: 0 <= k < |items| - 1 ==> items[1..][k] == items[k + 1];
      r
  }

  /** The loop of `remove_prefs`: the old set minus exactly the ids the
      items name; no other id is touched. */
  function RemoveAll(current: set<int>, items: seq<PrefItem>, t: Taxonomy): (r: set<int>)
    ensures r <= current
    ensures forall x :: x in r <==> x in current && forall k :: 0 <= k < |items| ==> RemoveTarget(items[k], t) != Some(x)
    decreases |items|
  {
    if items == [] then current
    else
      var next := match RemoveTarget(items[0], t) case Some(id) => current - {id} case None => current;
      var r := RemoveAll(next, items[1..], t);
      assert forall k :: 0 <= k < |items| - 1 ==> items[1..][k] == items[k + 1];
      r
  }

  /** `add_prefs(*items)`: load, add, save. */
  function AddPrefs(f: PrefsFile, items: seq<PrefItem>, t: Taxonomy): (r: PrefsFile)
    ensures r.Saved? && StrictlyIncreasing(r.ids)
    ensures LoadPrefs(f) <= LoadPrefs(r) && LoadPrefs(r) - LoadPrefs(f) <= Ids(t)
    ensures forall x :: x in LoadPrefs(r) <==>
      x in LoadPrefs(f) || exists k :: 0 <= k < |items| && AddTarget(items[k], t) == Some(x)
  {
    SavePrefs(AddAll(LoadPrefs(f), items, t))
  }

  /** `remove_prefs(*items)`: load, discard, save. */
  function RemovePrefs(f: PrefsFile, items: seq<PrefItem>, t: Taxonomy): (r: PrefsFile)
    ensures r.Saved? && StrictlyIncreasing(r.ids)
    ensures LoadPrefs(r) <= LoadPrefs(f)
    ensures forall x :: x in LoadPrefs(r) <==>
      x in LoadPrefs(f) && forall k :: 0 <= k < |items| ==> RemoveTarget(items[k], t) != Some(x)
  {
    SavePrefs(RemoveAll(LoadPrefs(f), items, t))
  }

  /** Matching a name ignores case, so every spelling finds the same genre. */
  lemma AddByNameIgnoresCase(current: set<int>, t: Taxonomy, name1: string, name2: string)
    requires Lower(name1) == Lower(name2)
    ensures AddAll(current, [ByName(name1)], t) == AddAll(current, [ByName(name2)], t)
  {
    assert FirstNameMatch(t, name1) == FirstNameMatch(t, name2) by {
      FirstNameMatchCase(t, name1, name2);
    }
  }

  lemma {:induction false} FirstNameMatchCase(t: Taxonomy, name1: string, name2: string)
    requires Lower(name1) == Lower(name2)
    ensures FirstNameMatch(t, name1) == FirstNameMatch(t, name2)
    decreases |t|
  {
    if t != [] {
      FirstNameMatchCase(t[1..], name1, name2);
    }
  }

  // ---------------------------------------------------------------------------
  // `toggle_ids` and the interactive menu
  // ---------------------------------------------------------------------------

  /** The ids in exactly one of the two sets. */
  function SymmetricDifference(a: set<int>, b: set<int>): (r: set<int>)
    ensures forall x :: x in r <==> (x in a) != (x in b)
  {
    (a - b) + (b - a)
  }

  /** Toggling the same ids twice restores the original set. */
  lemma ToggleTwice(current: set<int>, toggle: set<int>)
    ensures SymmetricDifference(SymmetricDifference(current, toggle), toggle) == current
  {
  }

  /** The loop of `toggle_ids`: each id present is removed, each absent id
      is added, one at a time. */
  method Toggle(current: set<int>, toggle: set<int>) returns (r: set<int>)
    ensures r == SymmetricDifference(current, toggle)
  {
    r := current;
    var remaining := toggle;
    while remaining != {}
      invariant remaining <= toggle
      invariant r == SymmetricDifference(current, toggle - remaining)
      decreases |remaining|
    {
      NoMembersIsEmpty(remaining);
      var id :| id in remaining;
      if id in r {
        r := r - {id};
      } else {
        r := r + {id};
      }
      remaining := remaining - {id};
    }
  }

  /** `toggle_ids(ids)`: load, toggle, save. Ids outside `toggle` keep
      their membership. */
  method ToggleIds(f: PrefsFile, toggle: set<int>) returns (saved: PrefsFile)
    ensures saved.Saved? && StrictlyIncreasing(saved.ids)
    ensures LoadPrefs(saved) == SymmetricDifference(LoadPrefs(f), toggle)
    ensures forall x :: x !in toggle ==> (x in LoadPrefs(saved) <==> x in LoadPrefs(f))
  {
    var current := Toggle(LoadPrefs(f), toggle);
    saved := SavePrefs(current);
  }

  /** The genre printed as menu number `number`: the menu counts from 1
      in taxonomy order. */
  function MenuEntry(t: Taxonomy, number: int): Genre
    requires 1 <= number <= |t|
  {
    t[number - 1]
  }

  /** Menu numbers to genre ids: a number in `1..len(movieGenres)` picks its
      menu entry; other numbers are ignored. */
  function MenuIds(indices: set<int>, t: Taxonomy): (r: set<int>)
    ensures r <= Ids(t)
    ensures forall i :: i in indices && 1 <= i <= |t| ==> MenuEntry(t, i).id in r
    ensures forall x :: x in r ==> exists i :: i in indices && 1 <= i <= |t| && MenuEntry(t, i).id == x
  {
    set i | i in indices && 1 <= i <= |t| :: MenuEntry(t, i).id
  }

  /** The numbers the menu prints, `1..n`. */
  function MenuNumbers(n: nat): (r: set<int>)
    ensures forall i :: i in r <==> 1 <= i <= n
  {
    if n == 0 then {} else MenuNumbers(n - 1) + {n}
  }

  /** Every genre has a menu number. */
  lemma {:induction false} MenuCoversTaxonomy(t: Taxonomy)
    ensures MenuIds(MenuNumbers(|t|), t) == Ids(t)
  {
    var numbers := MenuNumbers(|t|);
    var menu := MenuIds(numbers, t);
    forall x | x in Ids(t)
      ensures x in menu
    {
      var k :| 0 <= k < |t| && t[k].id == x;
      assert k + 1 in numbers;
      assert MenuEntry(t, k + 1) == t[k];
    }
    assert forall x :: x in menu <==> x in Ids(t);
  }

  /** `parse` applied to every piece, in order; `None` as soon as one piece
      fails, as an exception inside a comprehension ends it. */
  function ParseAll(parse: string -> Option<int>, parts: seq<string>): (r: Option<seq<int>>)
    ensures r.Some? <==> forall k :: 0 <= k < |parts| ==> parse(parts[k]).Some?
    ensures r.Some? ==> |r.value| == |parts| && forall k :: 0 <= k < |parts| ==> Some(r.value[k]) == parse(parts[k])
  {
    if parts == [] then Some([])
    else
      var head := parse(parts[0]);
      var rest := ParseAll(parse, parts[1..]);
      assert forall k :: 0 <= k < |parts| - 1 ==> parts[1..][k] == parts[k + 1];
      if head.None? || rest.None? then None else Some([head.value] + rest.value)
  }

  /** `{int(x) for x in raw.split(",")}`. */
  function ParseIndices(raw: string): (r: Option<set<int>>)
    ensures r.Some? <==> ParseAll(ParseInt, Split(raw, ',')).Some?
    ensures r.Some? ==> forall i :: i in r.value <==> i in ParseAll(ParseInt, Split(raw, ',')).value
  {
    match ParseAll(ParseInt, Split(raw, ','))
    case None => None
    case Some(ns) => Some(set k | 0 <= k < |ns| :: ns[k])
  }

  /** How the interactive menu ends. */
  datatype MenuOutcome =
      /** Empty input: "No changes made." */
    | NoChanges
      /** A piece was not a number. */
    | NotNumbers
      /** No number named a genre. */
    | NoValidSelections
      /** Preferences were toggled; then the names are listed again. */
    | Updated(names: Result<seq<string>, Error>)

  /** `store_user_prefs_interactive()` given the line the user typed. The
      file changes only when some number picks a genre, and then exactly
      the picked genres flip. */
  method StorePrefsInteractive(f: PrefsFile, raw: string, t: Taxonomy) returns (outcome: MenuOutcome, saved: PrefsFile)
    ensures !outcome.Updated? ==> saved == f
    ensures outcome == NoChanges <==> Strip(raw) == []
    ensures outcome == NotNumbers <==> Strip(raw) != [] && ParseIndices(Strip(raw)).None?
    ensures outcome == NoValidSelections <==>
      Strip(raw) != [] && ParseIndices(Strip(raw)).Some? && MenuIds(ParseIndices(Strip(raw)).value, t) == {}
    ensures outcome.Updated? <==>
      Strip(raw) != [] && ParseIndices(Strip(raw)).Some? && MenuIds(ParseIndices(Strip(raw)).value, t) != {}
    ensures outcome.Updated? ==>
      && ParseIndices(Strip(raw)).Some?
      && var picked := MenuIds(ParseIndices(Strip(raw)).value, t);
      && picked != {}
      && saved.Saved? && StrictlyIncreasing(saved.ids)
      && LoadPrefs(saved) == SymmetricDifference(LoadPrefs(f), picked)
      && outcome.names == ListPrefs(saved, t)
  {
    var line := Strip(raw);
    if line == [] {
      return NoChanges, f;
    }
    var indices := ParseIndices(line);
    if indices.None? {
      return NotNumbers, f;
    }
    var picked := MenuIds(indices.value, t);
    if picked == {} {
      return NoValidSelections, f;
    }
    saved := ToggleIds(f, picked);
    outcome := Updated(ListPrefs(saved, t));
  }
}

=== FILE: ranking.dfy ===
/** The recommender (tmdb_cli/gem_ai.py): gather a shortlist from several
    catalog pages, describe it one line per movie, hand the description to
    the ranking service, clean the ranked picks it answers with, and map
    them back onto the shortlist. The service is an oracle from the prompt
    text to the decoded answer. */
module Ranking {
  import opened Wrappers
  import opened Errors
  import opened Text
  import opened Json
  import opened Genres
  import opened Catalog
  import Prefs

  // ---------------------------------------------------------------------------
  // The shortlist
  // ---------------------------------------------------------------------------

  /** `range(1, pages + 4)` asks for three pages more than `pages`. */
  const ExtraPages: int := 3

  /** The page numbers requested: `1, 2, ..., pages + 3`, none when that is
      not positive. */
  function PageNumbers(pages: int): (r: seq<int>)
    ensures |r| == if pages + ExtraPages > 0 then pages + ExtraPages else 0
    ensures forall k :: 0 <= k < |r| ==> r[k] == k + 1
  {
    var count := if pages + ExtraPages > 0 then pages + ExtraPages else 0;
    seq(count, k requires 0 <= k < count => k + 1)
  }

  /** What one page adds to the shortlist: its movies, or nothing when the
      request raised (the exception is reported and the page skipped). */
  function PageMovies(fetch: Fetcher, movieType: string, page: int): (r: seq<Movie>)
    ensures FetchPage(fetch, movieType, page, None).Err? ==> r == []
    ensures FetchPage(fetch, movieType, page, None).Ok? ==> r == FetchPage(fetch, movieType, page, None).value.results
  {
    match FetchPage(fetch, movieType, page, None)
    case Ok(p) => p.results
    case Err(_) => []
  }

  /** The shortlist from the given pages, in request order. */
  function Gather(fetch: Fetcher, movieType: string, pages: seq<int>): (r: seq<Movie>)
    ensures forall m :: m in r <==> exists k :: 0 <= k < |pages| && m in PageMovies(fetch, movieType, pages[k])
    ensures |pages| == 1 ==> r == PageMovies(fetch, movieType, pages[0])
  {
    if pages == [] then []
    else
      var head := PageMovies(fetch, movieType, pages[0]);
      var rest := Gather(fetch, movieType, pages[1..]);
      assert forall m :: m in head + rest <==> exists k :: 0 <= k < |pages| && m in PageMovies(fetch, movieType, pages[k]) by {
        forall m
          ensures m in head + rest <==> exists k :: 0 <= k < |pages| && m in PageMovies(fetch, movieType, pages[k])
        {
          if m in rest {
            var k :| 0 <= k < |pages| - 1 && m in PageMovies(fetch, movieType, pages[1..][k]);
            assert pages[1..][k] == pages[k + 1];
          }
          if exists k :: 0 <= k < |pages| && m in PageMovies(fetch, movieType, pages[k]) {
            var k :| 0 <= k < |pages| && m in PageMovies(fetch, movieType, pages[k]);
            if k > 0 {
              assert pages[k] == pages[1..][k - 1];
            }
          }
        }
      }
      head + rest
  }

  /** Gathering two runs of pages is gathering each and concatenating. */
  lemma {:induction false} GatherAppend(fetch: Fetcher, movieType: string, a: seq<int>, b: seq<int>)
    ensures Gather(fetch, movieType, a + b) == Gather(fetch, movieType, a) + Gather(fetch, movieType, b)
    decreases |a|
  {
    if a != [] {
      assert (a + b)[0] == a[0];
      assert (a + b)[1..] == a[1..] + b;
      GatherAppend(fetch, movieType, a[1..], b);
    } else {
      assert a + b == b;
    }
  }

  /** The shortlist `recommend` builds: every page it asks for. */
  function Shortlist(fetch: Fetcher, movieType: string, pages: int): (r: seq<Movie>)
    ensures forall m :: m in r <==> exists p :: 1 <= p <= pages + ExtraPages && m in PageMovies(fetch, movieType, p)
    ensures pages + ExtraPages <= 0 ==> r == []
  {
    var numbers := PageNumbers(pages);
    var r := Gather(fetch, movieType, numbers);
    assert forall m :: m in r <==> exists p :: 1 <= p <= pages + ExtraPages && m in PageMovies(fetch, movieType, p) by {
      forall m | exists p :: 1 <= p <= pages + ExtraPages && m in PageMovies(fetch, movieType, p)
        ensures m in r
      {
        var p :| 1 <= p <= pages + ExtraPages && m in PageMovies(fetch, movieType, p);
        assert numbers[p - 1] == p;
      }
    }
    r
  }

  /** One more page asked for appends that page's movies: the shortlist
      is pages `1..pages+3` concatenated in order. */
  lemma ShortlistGrows(fetch: Fetcher, movieType: string, pages: int)
    requires pages + ExtraPages >= 0
    ensures Shortlist(fetch, movieType, pages + 1)
         == Shortlist(fetch, movieType, pages) + PageMovies(fetch, movieType, pages + ExtraPages + 1)
  {
    var before := PageNumbers(pages);
    var after := PageNumbers(pages + 1);
    assert after == before + [pages + ExtraPages + 1];
    GatherAppend(fetch, movieType, before, [pages + ExtraPages + 1]);
  }

  /** A category without an endpoint makes every page raise `KeyError`,
      which the page loop swallows: the shortlist is empty. */
  lemma {:induction false} UnknownCategoryGathersNothing(fetch: Fetcher, movieType: string, pages: seq<int>)
    requires movieType !in Endpoints
    ensures Gather(fetch, movieType, pages) == []
    decreases |pages|
  {
    if pages != [] {
      assert PageMovies(fetch, movieType, pages[0]) == [];
      UnknownCategoryGathersNothing(fetch, movieType, pages[1..]);
    }
  }

  // ---------------------------------------------------------------------------
  // The prompt: `build_shortlist_context` and the user message
  // ---------------------------------------------------------------------------

  /** The genre labels of a movie, in its own order. */
  function GenreLabels(t: Taxonomy, genreIds: seq<int>): (r: seq<string>)
    ensures |r| == |genreIds|
    ensures forall k :: 0 <= k < |r| ==> r[k] == Label(t, genreIds[k])
  {
    seq(|genreIds|, k requires 0 <= k < |genreIds| => Label(t, genreIds[k]))
  }

  /** One shortlist line: `"<id>: <title> | genres: <labels> | <overview>"`,
      the overview passed through `shorten` (`textwrap.shorten` to 120
      characters with an ellipsis). */
  function ContextLine(t: Taxonomy, shorten: string -> string, m: Movie): (r: string)
    ensures exists rest :: r == IntToString(m.id) + ": " + rest
    ensures exists overview :: r == IntToString(m.id) + ": " + m.title + " | genres: "
                                    + Join(GenreLabels(t, m.genreIds), ", ") + " | " + overview
    ensures r == IntToString(m.id) + ": " + m.title + " | genres: "
                 + Join(GenreLabels(t, m.genreIds), ", ") + " | " + shorten(m.overview)
  {
    var id := IntToString(m.id) + ": ";
    var genres := Join(GenreLabels(t, m.genreIds), ", ");
    var overview := shorten(m.overview);
    var rest := m.title + " | genres: " + genres + " | " + overview;
    AppendAssoc(id, m.title + " | genres: " + genres + " | ", overview);
    AppendAssoc(id, m.title + " | genres: " + genres, " | ");
    AppendAssoc(id, m.title + " | genres: ", genres);
    AppendAssoc(id, m.title, " | genres: ");
    id + rest
  }

  /** The id text never contains a colon. */
  lemma ColonFreeId(n: int)
    ensures ':' !in IntToString(n)
  {
    var s := IntToString(n);
    forall k | 0 <= k < |s|
      ensures s[k] != ':'
    {
      assert s[k] == '-' || IsDigit(s[k]);
    }
  }

  /** The text before the first colon of a line is the movie's id, and it
      parses back to it: the ranking service can quote ids from the lines. */
  lemma ContextLineId(t: Taxonomy, shorten: string -> string, m: Movie)
    ensures ParseInt(Split(ContextLine(t, shorten, m), ':')[0]) == Some(m.id)
  {
    var id := IntToString(m.id);
    var rest :| ContextLine(t, shorten, m) == id + ": " + rest;
    ColonFreeId(m.id);
    FirstPieceBeforeColon(id, rest);
    IntToStringRoundTrip(m.id);
  }

  /** Text without a colon, then `": "`, splits at that colon first. */
  lemma FirstPieceBeforeColon(id: string, rest: string)
    requires ':' !in id
    ensures Split(id + ": " + rest, ':')[0] == id
  {
    var line := id + [':'] + ([' '] + rest);
    assert id + ": " + rest == line;
    IndexOfAfter(id, ':', [' '] + rest);
    assert line[..|id|] == id;
  }

  /** `build_shortlist_context(movies)`: one line per movie, joined by
      newlines. */
  function ShortlistContext(t: Taxonomy, shorten: string -> string, movies: seq<Movie>): (r: string)
    ensures |movies| == 0 ==> r == ""
    ensures |movies| == 1 ==> r == ContextLine(t, shorten, movies[0])
    ensures |movies| > 1 ==> r == ContextLine(t, shorten, movies[0]) + "\n" + ShortlistContext(t, shorten, movies[1..])
  {
    var lines := ContextLines(t, shorten, movies);
    assert |movies| > 1 ==> lines[1..] == ContextLines(t, shorten, movies[1..]);
    Join(lines, "\n")
  }

  function ContextLines(t: Taxonomy, shorten: string -> string, movies: seq<Movie>): (r: seq<string>)
    ensures |r| == |movies|
    ensures forall k :: 0 <= k < |r| ==> r[k] == ContextLine(t, shorten, movies[k])
  {
    seq(|movies|, k requires 0 <= k < |movies| => ContextLine(t, shorten, movies[k]))
  }

  /** When no title, genre name or shortened overview holds a line break,
      the context splits back into exactly one line per shortlisted movie,
      in shortlist order. */
  lemma ContextSplitsIntoLines(t: Taxonomy, shorten: string -> string, movies: seq<Movie>)
    requires |movies| >= 1
    requires forall k :: 0 <= k < |movies| ==> '\n' !in ContextLine(t, shorten, movies[k])
    ensures Split(ShortlistContext(t, shorten, movies), '\n') == ContextLines(t, shorten, movies)
  {
    var lines := ContextLines(t, shorten, movies);
    SplitJoin(lines, '\n');
  }

  /** The first part of the user message. */
  const GenresHeader: string := "Preferred genres: "

  /** What stands between the preferred genres and the shortlist. */
  const ShortlistHeader: string := "\n\nShortlist (id: description):\n"

  /** The user message: the preferred genre names joined by `", "`, then
      the shortlist context. */
  function UserMessage(prefs: seq<string>, context: string): (r: string)
    ensures |r| == |GenresHeader| + |Join(prefs, ", ")| + |ShortlistHeader| + |context|
    ensures r[..|GenresHeader|] == GenresHeader
    ensures r[|r| - |context|..] == context
    ensures r[|GenresHeader|..|GenresHeader| + |Join(prefs, ", ")|] == Join(prefs, ", ")
    ensures r[|GenresHeader| + |Join(prefs, ", ")|..|r| - |context|] == ShortlistHeader
  {
    var head := GenresHeader + Join(prefs, ", ") + ShortlistHeader;
    AppendEnds(GenresHeader, Join(prefs, ", "), ShortlistHeader);
    assert (head + context)[..|GenresHeader|] == head[..|GenresHeader|];
    assert (head + context)[|head|..] == context;
    AppendMiddle(GenresHeader, Join(prefs, ", "), ShortlistHeader);
    assert (head + context)[|GenresHeader|..|GenresHeader| + |Join(prefs, ", ")|]
        == head[|GenresHeader|..|GenresHeader| + |Join(prefs, ", ")|];
    head + context
  }

  // ---------------------------------------------------------------------------
  // The answer: cleaning the picks (`ask_gemini`)
  // ---------------------------------------------------------------------------

  /** One cleaned pick: a non-zero id and the stripped reason. */
  datatype Pick = Pick(id: int, reason: string)

  /** A pick as the loop keeps it. */
  predicate WellFormed(p: Pick) {
    p.id != 0 && Strip(p.reason) == p.reason
  }

  /** One element of the decoded answer. Non-objects and objects without
      `"id"` are skipped; `int()` of the id may raise, which escapes the
      loop; a zero id is skipped. The reason is `str()` of the `"reason"`
      entry (`""` when absent), stripped. */
  function CleanEntry(v: Value): (r: Result<Option<Pick>, Error>)
    ensures r.Err? <==> v.JObject? && "id" in v.fields && PyInt(v.fields["id"]).Err?
    ensures r.Err? ==> r.error == BadPickId
    ensures r == Ok(None) <==> !v.JObject? || "id" !in v.fields || PyInt(v.fields["id"]) == Ok(0)
    ensures r.Ok? && r.value.Some? ==> WellFormed(r.value.value)
    ensures r.Ok? && r.value.Some? ==> v.JObject? && "id" in v.fields && PyInt(v.fields["id"]) == Ok(r.value.value.id)
    ensures r.Ok? && r.value.Some? ==>
      r.value.value.reason == Strip(PyStr(if "reason" in v.fields then v.fields["reason"] else JString("")))
  {
    match v
    case JObject(fields) =>
      if "id" !in fields then Ok(None)
      else
        var mid :- PyInt(fields["id"]);
        var why := Strip(PyStr(if "reason" in fields then fields["reason"] else JString("")));
        StripIdempotent(PyStr(if "reason" in fields then fields["reason"] else JString("")));
        if mid != 0 then Ok(Some(Pick(mid, why))) else Ok(None)
    case _ => Ok(None)
  }

  /** What `CleanEntry` makes of each element, in order. */
  function Entries(objs: seq<Value>): (r: seq<Result<Option<Pick>, Error>>)
    ensures |r| == |objs| && forall k :: 0 <= k < |r| ==> r[k] == CleanEntry(objs[k])
  {
    seq(|objs|, k requires 0 <= k < |objs| => CleanEntry(objs[k]))
  }

  /** A cleaned entry as a list: its pick, or nothing when it is skipped. */
  function Kept(entry: Option<Pick>): (r: seq<Pick>)
    ensures |r| <= 1
  {
    if entry.Some? then [entry.value] else []
  }

  /** The cleaning loop over the entries' outcomes, in answer order: the
      first failing entry aborts it, otherwise the kept picks are listed. */
  function Collect(entries: seq<Result<Option<Pick>, Error>>): (r: Result<seq<Pick>, Error>)
    ensures r.Ok? ==> |r.value| <= |entries|
  {
    if entries == [] then Ok([])
    else
      var rest := Collect(entries[1..]);
      match entries[0]
      case Err(e) => Err(e)
      case Ok(head) =>
        if rest.Err? then Err(rest.error)
        else Ok(Kept(head) + rest.value)
  }

  /** The loop fails exactly when some entry failed, with that entry's
      error. */
  lemma {:induction false} CollectFails(entries: seq<Result<Option<Pick>, Error>>)
    ensures Collect(entries).Err? <==> exists e :: e in entries && e.Err?
    ensures Collect(entries).Err? ==> Err(Collect(entries).error) in entries
    decreases |entries|
  {
    if entries != [] {
      CollectFails(entries[1..]);
      assert forall e :: e in entries <==> e == entries[0] || e in entries[1..];
    }
  }

  /** Every pick the loop returns is one an entry kept. */
  lemma {:induction false} CollectKeepsEntries(entries: seq<Result<Option<Pick>, Error>>)
    ensures Collect(entries).Ok? ==> forall p :: p in Collect(entries).value ==> Ok(Some(p)) in entries
    decreases |entries|
  {
    if entries != [] {
      CollectKeepsEntries(entries[1..]);
      assert forall e :: e in entries[1..] ==> e in entries;
    }
  }

  /** Collecting a longer list collects its two parts and concatenates: the
      picks keep the order the service gave them. */
  lemma {:induction false} CollectAppend(a: seq<Result<Option<Pick>, Error>>, b: seq<Result<Option<Pick>, Error>>)
    requires Collect(a).Ok? && Collect(b).Ok?
    ensures Collect(a + b) == Ok(Collect(a).value + Collect(b).value)
    decreases |a|
  {
    if a == [] {
      assert a + b == b;
      assert [] + Collect(b).value == Collect(b).value;
    } else {
      CollectTailOk(a);
      CollectAppend(a[1..], b);
      CollectAppendStep(a[0], a[1..], b);
    }
  }

  /** A list that collects has a first entry that does not fail and a rest
      that collects. */
  lemma CollectTailOk(entries: seq<Result<Option<Pick>, Error>>)
    requires entries != [] && Collect(entries).Ok?
    ensures entries[0].Ok? && Collect(entries[1..]).Ok?
    ensures entries == [entries[0]] + entries[1..]
  {
  }

  /** The inductive step of `CollectAppend`, its hypothesis taken as given. */
  lemma CollectAppendStep(h: Result<Option<Pick>, Error>, t: seq<Result<Option<Pick>, Error>>, b: seq<Result<Option<Pick>, Error>>)
    requires h.Ok? && Collect(t).Ok? && Collect(b).Ok?
    requires Collect(t + b) == Ok(Collect(t).value + Collect(b).value)
    ensures Collect([h] + t + b) == Ok(Collect([h] + t).value + Collect(b).value)
  {
    AppendAssoc([h], t, b);
    CollectConsOk(h, t);
    CollectConsOk(h, t + b);
    AppendAssoc(Kept(h.value), Collect(t).value, Collect(b).value);
  }

  lemma AppendAssoc<T>(a: seq<T>, b: seq<T>, c: seq<T>)
    ensures a + (b + c) == (a + b) + c
  {
  }

  /** One step of the loop over an entry that does not fail. */
  lemma CollectConsOk(h: Result<Option<Pick>, Error>, t: seq<Result<Option<Pick>, Error>>)
    requires h.Ok? && Collect(t).Ok?
    ensures Collect([h] + t) == Ok(Kept(h.value) + Collect(t).value)
  {
    var e := [h] + t;
    assert e[0] == h && e[1..] == t;
  }

  /** Entries that each keep a pick give exactly those picks. */
  lemma {:induction false} CollectKept(entries: seq<Result<Option<Pick>, Error>>, picks: seq<Pick>)
    requires |entries| == |picks|
    requires forall k :: 0 <= k < |entries| ==> entries[k] == Ok(Some(picks[k]))
    ensures Collect(entries) == Ok(picks)
    decreases |entries|
  {
    if entries != [] {
      assert forall k :: 0 <= k < |entries| - 1 ==> entries[1..][k] == entries[k + 1] && picks[1..][k] == picks[k + 1];
      CollectKept(entries[1..], picks[1..]);
      assert picks == [picks[0]] + picks[1..];
    }
  }

  /** The loop of `ask_gemini` over the decoded answer. */
  function CleanPicks(objs: seq<Value>): (r: Result<seq<Pick>, Error>)
    ensures r.Err? <==> exists k :: 0 <= k < |objs| && CleanEntry(objs[k]).Err?
    ensures r.Err? ==> r.error == BadPickId
    ensures r.Ok? ==> |r.value| <= |objs| && forall p :: p in r.value ==> WellFormed(p)
  {
    var entries := Entries(objs);
    var r := Collect(entries);
    CollectFails(entries);
    CollectKeepsEntries(entries);
    assert r.Err? <==> exists k :: 0 <= k < |objs| && CleanEntry(objs[k]).Err? by {
      if r.Err? {
        var e :| e in entries && e.Err?;
        var k :| 0 <= k < |entries| && entries[k] == e;
      }
      if exists k :: 0 <= k < |objs| && CleanEntry(objs[k]).Err? {
        var k :| 0 <= k < |objs| && CleanEntry(objs[k]).Err?;
        assert entries[k] in entries;
      }
    }
    assert r.Err? ==> r.error == BadPickId by {
      if r.Err? {
        var k :| 0 <= k < |entries| && entries[k] == Err(r.error);
      }
    }
    assert r.Ok? ==> forall p :: p in r.value ==> WellFormed(p) by {
      if r.Ok? {
        forall p | p in r.value
          ensures WellFormed(p)
        {
          var k :| 0 <= k < |entries| && entries[k] == Ok(Some(p));
        }
      }
    }
    r
  }

  /** An element the loop skips leaves no trace in the picks, wherever it
      stands in the answer. */
  lemma SkippedEntryDropped(a: seq<Value>, v: Value, b: seq<Value>)
    requires CleanEntry(v) == Ok(None)
    ensures CleanPicks(a + [v] + b) == CleanPicks(a + b)
  {
    EntriesAppend(a + [v], b);
    EntriesAppend(a, [v]);
    EntriesAppend(a, b);
    assert Entries([v]) == [Ok(None)];
    CollectSkips(Entries(a), Entries(b));
  }

  /** An element the loop keeps gives its pick, whatever shape it has:
      a text id, a missing reason or extra fields do not matter. */
  lemma KeptEntryKept(v: Value, p: Pick)
    requires CleanEntry(v) == Ok(Some(p))
    ensures CleanPicks([v]) == Ok([p])
  {
    var entries := Entries([v]);
    assert entries[0] == Ok(Some(p));
    CollectKept(entries, [p]);
  }

  /** A skipped entry contributes nothing to the loop's result. */
  lemma {:induction false} CollectSkips(x: seq<Result<Option<Pick>, Error>>, y: seq<Result<Option<Pick>, Error>>)
    ensures Collect(x + [Ok(None)] + y) == Collect(x + y)
    decreases |x|
  {
    if x == [] {
      var e := [Ok(None)] + y;
      assert x + [Ok(None)] + y == e && x + y == y;
      assert e[0] == Ok(None) && e[1..] == y;
      assert Kept(None) == [];
      assert Collect(y).Ok? ==> [] + Collect(y).value == Collect(y).value;
    } else {
      CollectSkips(x[1..], y);
      assert (x + [Ok(None)] + y)[0] == x[0] && (x + [Ok(None)] + y)[1..] == x[1..] + [Ok(None)] + y;
      assert (x + y)[0] == x[0] && (x + y)[1..] == x[1..] + y;
    }
  }

  /** Cleaning a longer answer cleans its two parts and concatenates. */
  lemma CleanPicksAppend(a: seq<Value>, b: seq<Value>)
    requires CleanPicks(a).Ok? && CleanPicks(b).Ok?
    ensures CleanPicks(a + b) == Ok(CleanPicks(a).value + CleanPicks(b).value)
  {
    EntriesAppend(a, b);
    CollectAppend(Entries(a), Entries(b));
  }

  lemma EntriesAppend(a: seq<Value>, b: seq<Value>)
    ensures Entries(a + b) == Entries(a) + Entries(b)
  {
  }

  /** A pick written as the JSON object the service is asked for. */
  function EncodePick(p: Pick): Value {
    JObject(map["id" := JInt(p.id), "reason" := JString(p.reason)])
  }

  function EncodePicks(picks: seq<Pick>): (r: seq<Value>)
    ensures |r| == |picks| && forall k :: 0 <= k < |r| ==> r[k] == EncodePick(picks[k])
  {
    seq(|picks|, k requires 0 <= k < |picks| => EncodePick(picks[k]))
  }

  /** A well-formed pick sent as the requested JSON object is kept as is. */
  lemma CleanEncodedPick(p: Pick)
    requires WellFormed(p)
    ensures CleanEntry(EncodePick(p)) == Ok(Some(p))
  {
    var fields := EncodePick(p).fields;
    assert fields["id"] == JInt(p.id) && fields["reason"] == JString(p.reason);
  }

  /** Well-formed picks sent as the requested JSON objects come back out of
      the cleaning loop unchanged. */
  lemma CleanEncodedPicks(picks: seq<Pick>)
    requires forall k :: 0 <= k < |picks| ==> WellFormed(picks[k])
    ensures CleanPicks(EncodePicks(picks)) == Ok(picks)
  {
    var objs := EncodePicks(picks);
    forall k | 0 <= k < |objs|
      ensures CleanEntry(objs[k]) == Ok(Some(picks[k]))
    {
      CleanEncodedPick(picks[k]);
    }
    CollectKept(Entries(objs), picks);
  }

  /** `int("bad")` raises. */
  lemma BadIsNotDecimal()
    ensures ParseInt("bad") == None
  {
    var bad := "bad";
    assert bad[0] == 'b' && bad[|bad| - 1] == 'd';
    StripUnpadded(bad);
    assert ParseSigned(bad) == None by {
      assert !DigitGroups(bad);
    }
  }

  /** An object whose id is text `int()` rejects fails to clean. */
  lemma NonDecimalIdFails(fields: map<string, Value>, s: string)
    requires "id" in fields && fields["id"] == JString(s) && ParseInt(s) == None
    ensures CleanEntry(JObject(fields)) == Err(BadPickId)
  {
  }

  /** An id that is not decimal text aborts the whole answer rather than
      skipping the entry; `"bad"` is such an id (`BadIsNotDecimal`). */
  lemma NonNumericIdAborts(s: string)
    requires ParseInt(s) == None
    ensures CleanPicks([JObject(map["id" := JString(s)])]) == Err(BadPickId)
  {
    var fields := map["id" := JString(s)];
    var objs := [JObject(fields)];
    NonDecimalIdFails(fields, s);
    assert Entries(objs) == [Err(BadPickId)];
    var entries: seq<Result<Option<Pick>, Error>> := [Err(BadPickId)];
    assert Collect(entries) == Err(BadPickId);
  }

  /** Python's `xs[:k]`: the first `k` elements, or for a negative `k` all
      but the last `-k`. */
  function PySliceTo<T>(xs: seq<T>, k: int): (r: seq<T>)
    ensures r <= xs
    ensures 0 <= k ==> |r| == if k < |xs| then k else |xs|
    ensures k < 0 ==> |r| == if |xs| + k > 0 then |xs| + k else 0
  {
    if 0 <= k then (if k < |xs| then xs[..k] else xs)
    else if |xs| + k > 0 then xs[..|xs| + k]
    else []
  }

  /** `ask_gemini` from the decoded answer on: `None` is text that is not
      JSON; what decodes is iterated, cleaned and cut to `top_k`. */
  function AskGemini(answer: Option<Value>, topK: int): (r: Result<seq<Pick>, Error>)
    ensures answer.None? ==> r == Err(InvalidRankingJson)
    ensures answer.Some? && Iterate(answer.value).Err? ==> r == Err(RankingNotIterable)
    ensures answer.Some? && Iterate(answer.value).Ok? ==>
      && (r.Ok? <==> CleanPicks(Iterate(answer.value).value).Ok?)
      && (r.Ok? ==> r.value <= CleanPicks(Iterate(answer.value).value).value)
    ensures answer.Some? && Iterate(answer.value).Ok? && CleanPicks(Iterate(answer.value).value).Ok? ==>
      r == Ok(PySliceTo(CleanPicks(Iterate(answer.value).value).value, topK))
    ensures answer.Some? && Iterate(answer.value).Ok? && CleanPicks(Iterate(answer.value).value).Err? ==>
      r == Err(BadPickId)
    ensures r.Ok? ==> forall k :: 0 <= k < |r.value| ==> WellFormed(r.value[k])
    ensures r.Ok? && 0 <= topK ==> |r.value| <= topK
  {
    if answer.None? then Err(InvalidRankingJson)
    else
      var objs :- Iterate(answer.value);
      var cleaned :- CleanPicks(objs);
      Ok(PySliceTo(cleaned, topK))
  }

  /** A well-formed answer in the requested shape yields its first `top_k`
      picks, in the service's order. */
  lemma AskGeminiOfEncoded(picks: seq<Pick>, topK: int)
    requires forall k :: 0 <= k < |picks| ==> WellFormed(picks[k])
    ensures AskGemini(Some(JArray(EncodePicks(picks))), topK) == Ok(PySliceTo(picks, topK))
  {
    CleanEncodedPicks(picks);
  }

  // ---------------------------------------------------------------------------
  // Mapping picks back to movies (`recommend`)
  // ---------------------------------------------------------------------------

  /** `{m["id"]: m for m in shortlist}`: a later movie with the same id
      replaces an earlier one. */
  function IdMap(movies: seq<Movie>): (r: map<int, Movie>)
    ensures forall id :: id in r <==> Listed(movies, id)
    ensures forall id :: id in r ==> r[id].id == id && r[id] in movies
    ensures forall id :: id in r ==> LastWithId(movies, id) == r[id]
  {
    if movies == [] then map[]
    else
      var init := movies[..|movies| - 1];
      var last := movies[|movies| - 1];
      var r := IdMap(init);
      assert forall k :: 0 <= k < |init| ==> init[k] == movies[k];
      r[last.id := last]
  }

  /** The last movie of the list carrying `id`. */
  function LastWithId(movies: seq<Movie>, id: int): (r: Movie)
    requires Listed(movies, id)
    ensures exists k :: 0 <= k < |movies| && movies[k] == r && r.id == id
                        && forall j :: k < j < |movies| ==> movies[j].id != id
  {
    var init := movies[..|movies| - 1];
    var last := movies[|movies| - 1];
    if last.id == id then last
    else
      assert Listed(init, id) by {
        var k :| 0 <= k < |movies| && movies[k].id == id;
        assert k < |init| && init[k] == movies[k];
      }
      var r := LastWithId(init, id);
      LastWithIdStep(movies, id, r);
      r
  }

  /** A last occurrence before the final element is still the last one
      when the final element carries another id. */
  lemma LastWithIdStep(movies: seq<Movie>, id: int, r: Movie)
    requires |movies| > 0 && movies[|movies| - 1].id != id
    requires var init := movies[..|movies| - 1];
      exists k :: 0 <= k < |init| && init[k] == r && r.id == id
                  && forall j :: k < j < |init| ==> init[j].id != id
    ensures exists k :: 0 <= k < |movies| && movies[k] == r && r.id == id
                        && forall j :: k < j < |movies| ==> movies[j].id != id
  {
    var init := movies[..|movies| - 1];
    var k :| 0 <= k < |init| && init[k] == r && r.id == id
             && forall j :: k < j < |init| ==> init[j].id != id;
    assert movies[k] == r;
    forall j | k < j < |movies|
      ensures movies[j].id != id
    {
      if j < |init| {
        assert movies[j] == init[j];
      }
    }
  }

  /** Every movie in the map is stored under its own id. */
  predicate KeyedById(idMap: map<int, Movie>) {
    forall id :: id in idMap ==> idMap[id].id == id
  }

  /** The pick loop: a pick whose id is in the map gives a copy of that
      movie carrying the pick's reason; other picks are dropped. */
  function ResolveWith(picks: seq<Pick>, idMap: map<int, Movie>): (r: seq<Movie>)
    requires KeyedById(idMap)
    ensures |r| <= |picks|
    ensures forall k :: 0 <= k < |r| ==> r[k].id in idMap && r[k] == idMap[r[k].id].(reason := r[k].reason)
    ensures forall k :: 0 <= k < |r| ==> r[k].reason.Some?
    ensures (forall k :: 0 <= k < |picks| ==> picks[k].id in idMap) ==> |r| == |picks|
  {
    if picks == [] then []
    else
      var rest := ResolveWith(picks[1..], idMap);
      assert forall k :: 1 <= k < |picks| ==> picks[k] == picks[1..][k - 1];
      var p := picks[0];
      if p.id in idMap then [idMap[p.id].(reason := Some(p.reason))] + rest else rest
  }

  /** Resolving two runs of picks resolves each and concatenates. */
  lemma {:induction false} ResolveAppend(a: seq<Pick>, b: seq<Pick>, idMap: map<int, Movie>)
    requires KeyedById(idMap)
    ensures ResolveWith(a + b, idMap) == ResolveWith(a, idMap) + ResolveWith(b, idMap)
    decreases |a|
  {
    if a != [] {
      assert (a + b)[0] == a[0];
      assert (a + b)[1..] == a[1..] + b;
      ResolveAppend(a[1..], b, idMap);
    } else {
      assert a + b == b;
    }
  }

  /** When every pick names a shortlisted movie, the result lists those
      movies in pick order, each with its pick's reason. */
  lemma {:induction false} ResolveAllKnown(picks: seq<Pick>, idMap: map<int, Movie>)
    requires forall k :: 0 <= k < |picks| ==> picks[k].id in idMap
    requires KeyedById(idMap)
    ensures var r := ResolveWith(picks, idMap);
      forall k :: 0 <= k < |picks| ==> r[k] == idMap[picks[k].id].(reason := Some(picks[k].reason))
    decreases |picks|
  {
    if picks != [] {
      var rest := ResolveWith(picks[1..], idMap);
      ResolveAllKnown(picks[1..], idMap);
      var r := ResolveWith(picks, idMap);
      assert r == [idMap[picks[0].id].(reason := Some(picks[0].reason))] + rest;
      assert forall k :: 1 <= k < |picks| ==> r[k] == rest[k - 1] && picks[k] == picks[1..][k - 1];
    }
  }

  /** A pick whose id is not shortlisted contributes nothing. */
  lemma UnknownPickDropped(a: seq<Pick>, p: Pick, b: seq<Pick>, idMap: map<int, Movie>)
    requires p.id !in idMap && KeyedById(idMap)
    ensures ResolveWith(a + [p] + b, idMap) == ResolveWith(a + b, idMap)
  {
    ResolveAppend(a + [p], b, idMap);
    ResolveAppend(a, [p], idMap);
    ResolveAppend(a, b, idMap);
    assert ResolveWith([p], idMap) == [];
  }

  /** The result of `recommend` for ranked picks over a shortlist. */
  function Resolve(picks: seq<Pick>, shortlist: seq<Movie>): (r: seq<Movie>)
    ensures |r| <= |picks|
    ensures forall k :: 0 <= k < |r| ==>
      exists j :: 0 <= j < |shortlist| && r[k] == shortlist[j].(reason := r[k].reason)
    ensures forall k :: 0 <= k < |r| ==> r[k].reason.Some?
    ensures forall k :: 0 <= k < |r| ==>
      Listed(shortlist, r[k].id) && r[k] == LastWithId(shortlist, r[k].id).(reason := r[k].reason)
    ensures (forall k :: 0 <= k < |picks| ==> Listed(shortlist, picks[k].id)) ==>
      |r| == |picks| && forall k :: 0 <= k < |picks| ==>
        r[k] == LastWithId(shortlist, picks[k].id).(reason := Some(picks[k].reason))
  {
    var idMap := IdMap(shortlist);
    var r := ResolveWith(picks, idMap);
    assert forall k :: 0 <= k < |r| ==> idMap[r[k].id] in shortlist;
    if forall k :: 0 <= k < |picks| ==> Listed(shortlist, picks[k].id) then
      ResolveAllKnown(picks, idMap);
      r
    else
      r
  }

  /** Resolving two runs of picks resolves each and concatenates: the
      picks are looked up one at a time, in the service's order. */
  lemma ResolveConcat(a: seq<Pick>, b: seq<Pick>, shortlist: seq<Movie>)
    ensures Resolve(a + b, shortlist) == Resolve(a, shortlist) + Resolve(b, shortlist)
  {
    ResolveAppend(a, b, IdMap(shortlist));
  }

  /** A single pick gives the last shortlisted movie with its id, carrying
      its reason, or nothing when no shortlisted movie has that id. */
  lemma ResolveOne(p: Pick, shortlist: seq<Movie>)
    ensures Listed(shortlist, p.id) ==> Resolve([p], shortlist) == [LastWithId(shortlist, p.id).(reason := Some(p.reason))]
    ensures !Listed(shortlist, p.id) ==> Resolve([p], shortlist) == []
  {
    var idMap := IdMap(shortlist);
    assert [p][1..] == [];
    assert ResolveWith([], idMap) == [];
  }

  /** A pick whose id is not shortlisted is skipped, and the picks around
      it keep their results and their order. */
  lemma ResolveDropsUnlisted(a: seq<Pick>, p: Pick, b: seq<Pick>, shortlist: seq<Movie>)
    requires !Listed(shortlist, p.id)
    ensures Resolve(a + [p] + b, shortlist) == Resolve(a + b, shortlist)
  {
    UnknownPickDropped(a, p, b, IdMap(shortlist));
  }

  /** Some shortlisted movie carries `id`. */
  predicate Listed(movies: seq<Movie>, id: int) {
    exists k :: 0 <= k < |movies| && movies[k].id == id
  }

  // ---------------------------------------------------------------------------
  // `recommend`
  // ---------------------------------------------------------------------------

  /** The ranking service: the user message in, the decoded answer out
      (`None` when its text is not JSON). The system instruction and the
      model settings are fixed. */
  type Ranker = string -> Option<Value>

  /** `recommend(movie_type, pages=pages, top_k=top_k)` with the preference
      file `stored`, the taxonomy `t`, the catalog `fetch`, the service
      `ranker` and the overview shortener `shorten`. */
  function Recommend(movieType: string, pages: int, topK: int, stored: Prefs.PrefsFile, t: Taxonomy,
                     fetch: Fetcher, ranker: Ranker, shorten: string -> string): (r: Result<seq<Movie>, Error>)
    ensures Prefs.ListPrefs(stored, t).Err? ==> r == Err(Prefs.ListPrefs(stored, t).error)
    ensures Prefs.ListPrefs(stored, t).Ok? && Prefs.LoadPrefs(stored) == {} ==> r == Err(NoPreferences)
    ensures r == Err(EmptyShortlist) <==>
      Prefs.ListPrefs(stored, t).Ok? && Prefs.LoadPrefs(stored) != {} && Shortlist(fetch, movieType, pages) == []
    ensures r.Ok? ==> Prefs.LoadPrefs(stored) != {} && Shortlist(fetch, movieType, pages) != []
    ensures r.Ok? && 0 <= topK ==> |r.value| <= topK
    ensures Prefs.ListPrefs(stored, t).Ok? && Prefs.LoadPrefs(stored) != {} && Shortlist(fetch, movieType, pages) != [] ==>
      var answer := AskGemini(ranker(UserMessage(Prefs.ListPrefs(stored, t).value,
                                                 ShortlistContext(t, shorten, Shortlist(fetch, movieType, pages)))), topK);
      && (answer.Err? ==> r == Err(answer.error))
      && (answer.Ok? ==> r == Ok(Resolve(answer.value, Shortlist(fetch, movieType, pages))))
    ensures r.Ok? ==> forall k :: 0 <= k < |r.value| ==>
      && r.value[k].reason.Some?
      && (exists j :: 0 <= j < |Shortlist(fetch, movieType, pages)| &&
            r.value[k] == Shortlist(fetch, movieType, pages)[j].(reason := r.value[k].reason))
  {
    var prefs :- Prefs.ListPrefs(stored, t);
    if prefs == [] then Err(NoPreferences)
    else
      var shortlist := Shortlist(fetch, movieType, pages);
      if shortlist == [] then Err(EmptyShortlist)
      else
        var message := UserMessage(prefs, ShortlistContext(t, shorten, shortlist));
        var picks :- AskGemini(ranker(message), topK);
        Ok(Resolve(picks, shortlist))
  }

  /** A category without an endpoint never reaches the ranking service:
      with preferences saved, `recommend` reports an empty shortlist. */
  lemma UnknownCategoryRecommend(movieType: string, pages: int, topK: int, stored: Prefs.PrefsFile, t: Taxonomy,
                                 fetch: Fetcher, ranker: Ranker, shorten: string -> string)
    requires movieType !in Endpoints
    requires Prefs.ListPrefs(stored, t).Ok? && Prefs.LoadPrefs(stored) != {}
    ensures Recommend(movieType, pages, topK, stored, t, fetch, ranker, shorten) == Err(EmptyShortlist)
  {
    UnknownCategoryGathersNothing(fetch, movieType, PageNumbers(pages));
  }

  /** When the service answers the prompt with well-formed picks in the
      requested shape, `recommend` returns the shortlisted movies its first
      `top_k` picks name, in the service's order, each with its reason. */
  lemma RecommendFollowsRanking(movieType: string, pages: int, topK: int, stored: Prefs.PrefsFile, t: Taxonomy,
                                fetch: Fetcher, ranker: Ranker, shorten: string -> string, picks: seq<Pick>)
    requires Prefs.ListPrefs(stored, t).Ok? && Prefs.LoadPrefs(stored) != {}
    requires Shortlist(fetch, movieType, pages) != []
    requires forall k :: 0 <= k < |picks| ==> WellFormed(picks[k])
    requires ranker(UserMessage(Prefs.ListPrefs(stored, t).value,
                                ShortlistContext(t, shorten, Shortlist(fetch, movieType, pages))))
             == Some(JArray(EncodePicks(picks)))
    ensures Recommend(movieType, pages, topK, stored, t, fetch, ranker, shorten)
            == Ok(Resolve(PySliceTo(picks, topK), Shortlist(fetch, movieType, pages)))
  {
    AskGeminiOfEncoded(picks, topK);
  }
}

=== FILE: text.dfy ===
/** Python's string built-ins that the modelled code relies on: `str.strip`,
    `str.lower` (ASCII letters only), `str.split`, `str.join`, `str(int)` and
    `int(str)`. */
module Text {
  import opened Wrappers

  // ---------------------------------------------------------------------------
  // Whitespace and `str.strip()`
  // ---------------------------------------------------------------------------

  /** The characters Python's `str.isspace` accepts. */
  predicate IsSpace(c: char) {
    || '\t' <= c <= '\r'
    || '\U{1c}' <= c <= ' '
    || c == '\U{85}' || c == '\U{a0}' || c == '\U{1680}'
    || '\U{2000}' <= c <= '\U{200a}'
    || c == '\U{2028}' || c == '\U{2029}' || c == '\U{202f}'
    || c == '\U{205f}' || c == '\U{3000}'
  }

  /** `s` with its leading whitespace removed. */
  function TrimStart(s: string): (r: string)
    ensures |r| <= |s| && r == s[|s| - |r|..]
    ensures forall k :: 0 <= k < |s| - |r| ==> IsSpace(s[k])
    ensures r == [] || !IsSpace(r[0])
    decreases |s|
  {
    if |s| > 0 && IsSpace(s[0]) then TrimStart(s[1..]) else s
  }

  /** `s` with its trailing whitespace removed. */
  function TrimEnd(s: string): (r: string)
    ensures |r| <= |s| && r == s[..|r|]
    ensures forall k :: |r| <= k < |s| ==> IsSpace(s[k])
    ensures r == [] || !IsSpace(r[|r| - 1])
    decreases |s|
  {
    if |s| > 0 && IsSpace(s[|s| - 1]) then TrimEnd(s[..|s| - 1]) else s
  }

  /** Python's `s.strip()`: the longest infix of `s` that neither starts nor
      ends with whitespace, everything cut away being whitespace. */
  function Strip(s: string): (r: string)
    ensures |r| <= |s|
    ensures r == [] || (!IsSpace(r[0]) && !IsSpace(r[|r| - 1]))
  {
    TrimEnd(TrimStart(s))
  }

  /** What `Strip` cuts away is whitespace, and what it keeps is the infix
      of `s` starting after the leading whitespace. */
  lemma StripCutsOnlySpace(s: string)
    ensures var r := Strip(s);
      && LeadingSpace(s) + |r| <= |s|
      && r == s[LeadingSpace(s)..LeadingSpace(s) + |r|]
      && (forall k :: 0 <= k < LeadingSpace(s) ==> IsSpace(s[k]))
      && (forall k :: LeadingSpace(s) + |r| <= k < |s| ==> IsSpace(s[k]))
  {
  }

  /** The number of whitespace characters `s` starts with. */
  function LeadingSpace(s: string): (n: nat)
    ensures n <= |s|
  {
    |s| - |TrimStart(s)|
  }

  /** A string that neither starts nor ends with whitespace is its own strip. */
  lemma {:induction false} StripUnpadded(s: string)
    requires s == [] || (!IsSpace(s[0]) && !IsSpace(s[|s| - 1]))
    ensures Strip(s) == s
  {
    assert TrimStart(s) == s;
    assert TrimEnd(s) == s;
  }

  /** Stripping twice is stripping once. */
  lemma StripIdempotent(s: string)
    ensures Strip(Strip(s)) == Strip(s)
  {
    StripUnpadded(Strip(s));
  }

  // ---------------------------------------------------------------------------
  // `str.lower()`
  // ---------------------------------------------------------------------------

  function LowerChar(c: char): char {
    if 'A' <= c <= 'Z' then (c as int + 32) as char else c
  }

  /** `s.lower()` for ASCII letters; every other character is kept. */
  function Lower(s: string): (r: string)
    ensures |r| == |s|
    ensures forall i :: 0 <= i < |s| ==> r[i] == LowerChar(s[i])
  {
    seq(|s|, i requires 0 <= i < |s| => LowerChar(s[i]))
  }

  /** Lower-casing gives exactly `"y"` for the two spellings of that letter
      and nothing else. */
  lemma LowerIsY(s: string)
    ensures Lower(s) == "y" <==> s == "y" || s == "Y"
  {
    if Lower(s) == "y" {
      assert |s| == 1 && LowerChar(s[0]) == 'y';
    }
  }

  // ---------------------------------------------------------------------------
  // Decimal text: `str(n)` and `int(s)`
  // ---------------------------------------------------------------------------

  predicate IsDigit(c: char) {
    '0' <= c <= '9'
  }

  function DigitChar(d: nat): (c: char)
    requires d < 10
    ensures IsDigit(c)
  {
    ('0' as int + d) as char
  }

  /** The decimal digits of `n`, without leading zeros. */
  function NatToString(n: nat): (r: string)
    ensures |r| >= 1
    ensures forall i :: 0 <= i < |r| ==> IsDigit(r[i])
    ensures r[0] == '0' ==> n == 0
    ensures r[0] == '0' ==> r == "0"
    decreases n
  {
    if n < 10 then [DigitChar(n)] else NatToString(n / 10) + [DigitChar(n % 10)]
  }

  /** Python's `str(n)` for an integer. */
  function IntToString(n: int): (r: string)
    ensures |r| >= 1
    ensures r[0] == '-' <==> n < 0
    ensures n >= 0 ==> IsDigit(r[0])
    ensures forall i :: 0 < i < |r| ==> IsDigit(r[i])
    ensures n >= 0 && r[0] == '0' ==> r == "0"
    ensures n < 0 ==> |r| >= 2 && r[1] != '0'
  {
    if n < 0 then "-" + NatToString(-n) else NatToString(n)
  }

  function DigitValue(c: char): nat
    requires IsDigit(c)
  {
    c as int - '0' as int
  }

  /** The value of a string of decimal digits. */
  function DigitsValue(d: string): nat
    requires forall i :: 0 <= i < |d| ==> IsDigit(d[i])
  {
    if d == [] then 0 else DigitsValue(d[..|d| - 1]) * 10 + DigitValue(d[|d| - 1])
  }

  /** Python's grammar for the digits of `int(s)`: digits, where a single
      underscore may stand between two digits. */
  predicate DigitGroups(b: string) {
    && |b| > 0
    && IsDigit(b[0])
    && (forall i :: 0 <= i < |b| ==> IsDigit(b[i]) || b[i] == '_')
    && (forall i :: 0 <= i < |b| - 1 && b[i] == '_' ==> IsDigit(b[i + 1]))
    && b[|b| - 1] != '_'
  }

  function RemoveUnderscores(b: string): (r: string)
    ensures |r| <= |b|
    ensures forall i :: 0 <= i < |r| ==> r[i] != '_'
    ensures (forall i :: 0 <= i < |b| ==> IsDigit(b[i]) || b[i] == '_') ==>
              forall i :: 0 <= i < |r| ==> IsDigit(r[i])
  {
    if b == [] then []
    else (if b[0] == '_' then [] else [b[0]]) + RemoveUnderscores(b[1..])
  }

  /** Python's `int(s)` on a string: `None` stands for the `ValueError` it
      raises. Surrounding whitespace and one sign are accepted. */
  function ParseInt(s: string): (r: Option<int>)
    ensures r.Some? ==> Strip(s) != []
    ensures r.Some? && r.value < 0 ==> Strip(s)[0] == '-'
    ensures r.Some? ==> SignedDigitText(Strip(s))
  {
    var t := Strip(s);
    ParseSignedShape(t);
    ParseSigned(t)
  }

  /** `int()` of digits, or of a minus sign and digits, with any
      surrounding whitespace, is their decimal value. */
  lemma ParseIntOfDigits(s: string)
    ensures |Strip(s)| > 0 && (forall k :: 0 <= k < |Strip(s)| ==> IsDigit(Strip(s)[k])) ==>
      ParseInt(s) == Some(DigitsValue(Strip(s)) as int)
    ensures |Strip(s)| > 1 && Strip(s)[0] == '-' && (forall k :: 1 <= k < |Strip(s)| ==> IsDigit(Strip(s)[k])) ==>
      ParseInt(s) == Some(-(DigitsValue(Strip(s)[1..]) as int))
  {
    ParseSignedOfDigits(Strip(s));
    ParseSignedOfMinusDigits(Strip(s));
  }

  /** On plain digits `int()` gives their decimal value. */
  lemma ParseSignedOfDigits(t: string)
    ensures |t| > 0 && (forall k :: 0 <= k < |t| ==> IsDigit(t[k])) ==>
      ParseSigned(t) == Some(DigitsValue(t) as int)
  {
    if |t| > 0 && forall k :: 0 <= k < |t| ==> IsDigit(t[k]) {
      DigitsParse(t);
    }
  }

  /** On a minus sign and digits `int()` gives the negated decimal value. */
  lemma ParseSignedOfMinusDigits(t: string)
    ensures |t| > 1 && t[0] == '-' && (forall k :: 1 <= k < |t| ==> IsDigit(t[k])) ==>
      ParseSigned(t) == Some(-(DigitsValue(t[1..]) as int))
  {
    if |t| > 1 && t[0] == '-' && forall k :: 1 <= k < |t| ==> IsDigit(t[k]) {
      var d := t[1..];
      assert forall k :: 0 <= k < |d| ==> d[k] == t[k + 1];
      DigitsAreGroups(d);
      NegativeParse(t, d);
    }
  }

  /** Text `int()` can accept: an optional sign at the front, otherwise only
      digits and underscores. */
  predicate SignedDigitText(t: string) {
    forall k :: 0 <= k < |t| ==> IsDigit(t[k]) || t[k] == '_' || (k == 0 && (t[0] == '-' || t[0] == '+'))
  }

  /** Whatever `int()` accepts has the shape of signed digit text. */
  lemma ParseSignedShape(t: string)
    ensures ParseSigned(t).Some? ==> SignedDigitText(t)
  {
    if ParseSigned(t).Some? {
      var body := if |t| > 0 && (t[0] == '-' || t[0] == '+') then t[1..] else t;
      assert DigitGroups(body);
      if |t| > 0 && (t[0] == '-' || t[0] == '+') {
        assert forall k :: 1 <= k < |t| ==> t[k] == body[k - 1];
      }
    }
  }

  /** Surrounding whitespace does not change what `int()` makes of text. */
  lemma ParseIntIgnoresPadding(s: string)
    ensures ParseInt(Strip(s)) == ParseInt(s)
  {
    StripIdempotent(s);
  }

  /** `int()` on already stripped text: an optional sign, then digit groups. */
  function ParseSigned(t: string): (r: Option<int>)
    ensures r.Some? ==> |t| > 0
  {
    var negative := |t| > 0 && t[0] == '-';
    var body := if |t| > 0 && (t[0] == '-' || t[0] == '+') then t[1..] else t;
    if DigitGroups(body) then
      var magnitude: int := DigitsValue(RemoveUnderscores(body));
      Some(if negative then -magnitude else magnitude)
    else
      None
  }

  /** A run of digits is an instance of the digit grammar. */
  lemma DigitsAreGroups(d: string)
    requires |d| > 0 && forall i :: 0 <= i < |d| ==> IsDigit(d[i])
    ensures DigitGroups(d) && RemoveUnderscores(d) == d
  {
    RemoveUnderscoresOfDigits(d);
  }

  /** A non-empty run of digits is accepted by the digit grammar and
      stands for its decimal value. */
  lemma DigitsParse(d: string)
    requires |d| > 0 && forall i :: 0 <= i < |d| ==> IsDigit(d[i])
    ensures ParseSigned(d) == Some(DigitsValue(d) as int)
  {
    DigitsAreGroups(d);
    assert !(d[0] == '-' || d[0] == '+');
  }

  /** A minus sign before digit groups negates their value. */
  lemma NegativeParse(t: string, b: string)
    requires |t| > 0 && t[0] == '-' && t[1..] == b && DigitGroups(b)
    ensures ParseSigned(t) == Some(-(DigitsValue(RemoveUnderscores(b)) as int))
  {
  }

  /** Text without surrounding whitespace is parsed as it stands. */
  lemma ParseUnpadded(s: string)
    requires |s| > 0 && !IsSpace(s[0]) && !IsSpace(s[|s| - 1])
    ensures ParseInt(s) == ParseSigned(s)
  {
    StripUnpadded(s);
  }

  lemma {:induction false} DigitsValueOfNat(n: nat)
    ensures DigitsValue(NatToString(n)) == n
    decreases n
  {
    if n >= 10 {
      var d := NatToString(n / 10);
      var s := d + [DigitChar(n % 10)];
      assert s[..|s| - 1] == d;
      DigitsValueOfNat(n / 10);
    }
  }

  lemma {:induction false} RemoveUnderscoresOfDigits(b: string)
    requires forall i :: 0 <= i < |b| ==> IsDigit(b[i])
    ensures RemoveUnderscores(b) == b
    decreases |b|
  {
    if b != [] {
      RemoveUnderscoresOfDigits(b[1..]);
    }
  }

  /** `int(str(n)) == n`: the decimal text of an integer parses back to it. */
  lemma IntToStringRoundTrip(n: int)
    ensures ParseInt(IntToString(n)) == Some(n)
  {
    var m: nat := if n < 0 then -n else n;
    var digits := NatToString(m);
    DigitsValueOfNat(m);
    var s := IntToString(n);
    assert !IsSpace(s[0]) && !IsSpace(s[|s| - 1]);
    ParseUnpadded(s);
    if n < 0 {
      assert s[0] == '-' && s[1..] == digits;
      DigitsAreGroups(digits);
      NegativeParse(s, digits);
    } else {
      assert s == digits;
      DigitsParse(digits);
    }
  }

  // ---------------------------------------------------------------------------
  // `sep.join(parts)` and `s.split(sep)`
  // ---------------------------------------------------------------------------

  /** Python's `sep.join(parts)`. */
  function Join(parts: seq<string>, sep: string): (r: string)
    ensures |parts| == 0 ==> r == ""
    ensures |parts| == 1 ==> r == parts[0]
    ensures |parts| > 1 ==> r == parts[0] + sep + Join(parts[1..], sep)
  {
    if |parts| == 0 then ""
    else if |parts| == 1 then parts[0]
    else parts[0] + sep + Join(parts[1..], sep)
  }

  /** The index of the first occurrence of `c` in `s`. */
  function IndexOf(s: string, c: char): (r: nat)
    requires c in s
    ensures r < |s| && s[r] == c && c !in s[..r]
  {
    if s[0] == c then 0
    else
      assert c in s[1..];
      var k := IndexOf(s[1..], c);
      assert s[..k + 1] == [s[0]] + s[1..][..k];
      k + 1
  }

  /** Python's `s.split(sep)` for a one-character separator: the pieces
      between separators, possibly empty, never fewer than one. */
  function Split(s: string, sep: char): (r: seq<string>)
    ensures |r| >= 1
    ensures forall i :: 0 <= i < |r| ==> sep !in r[i]
    decreases |s|
  {
    if sep !in s then [s]
    else
      var i := IndexOf(s, sep);
      [s[..i]] + Split(s[i + 1..], sep)
  }

  /** Splitting and re-joining with the same separator gives the text back. */
  lemma {:induction false} JoinSplit(s: string, sep: char)
    ensures Join(Split(s, sep), [sep]) == s
    decreases |s|
  {
    if sep in s {
      var i := IndexOf(s, sep);
      var rest := Split(s[i + 1..], sep);
      assert Split(s, sep) == [s[..i]] + rest;
      JoinCons(s[..i], rest, [sep]);
      JoinSplit(s[i + 1..], sep);
      assert s == s[..i] + [sep] + s[i + 1..];
    }
  }

  /** Joining one more part in front adds it and a separator. */
  lemma JoinCons(p: string, parts: seq<string>, sep: string)
    requires |parts| >= 1
    ensures Join([p] + parts, sep) == p + sep + Join(parts, sep)
  {
    var all := [p] + parts;
    assert all[0] == p && all[1..] == parts;
  }

  /** Joining two non-empty lists puts one separator between their joins. */
  lemma {:induction false} JoinAppend(a: seq<string>, b: seq<string>, sep: string)
    requires |a| >= 1 && |b| >= 1
    ensures Join(a + b, sep) == Join(a, sep) + sep + Join(b, sep)
    decreases |a|
  {
    var h, t := a[0], a[1..];
    assert a == [h] + t;
    if t == [] {
      JoinOneAppend(h, b, sep);
    } else {
      JoinAppend(t, b, sep);
      JoinAppendStep(h, t, b, sep);
    }
  }

  lemma JoinOneAppend(h: string, b: seq<string>, sep: string)
    requires |b| >= 1
    ensures Join([h] + b, sep) == Join([h], sep) + sep + Join(b, sep)
  {
    JoinCons(h, b, sep);
  }

  /** The inductive step of `JoinAppend`, its hypothesis taken as given. */
  lemma JoinAppendStep(h: string, t: seq<string>, b: seq<string>, sep: string)
    requires |t| >= 1 && |b| >= 1
    requires Join(t + b, sep) == Join(t, sep) + sep + Join(b, sep)
    ensures Join([h] + t + b, sep) == Join([h] + t, sep) + sep + Join(b, sep)
  {
    ConcatAssoc([h], t, b);
    JoinCons(h, t + b, sep);
    JoinCons(h, t, sep);
    JoinAssoc(h, sep, Join(t, sep), Join(b, sep));
  }

  lemma ConcatAssoc<T>(a: seq<T>, b: seq<T>, c: seq<T>)
    ensures a + (b + c) == (a + b) + c
  {
  }

  lemma JoinAssoc(p: string, sep: string, x: string, y: string)
    ensures p + sep + (x + sep + y) == (p + sep + x) + sep + y
  {
  }

  /** In `a + [c] + b` with `c` not in `a`, the first `c` is the one after `a`. */
  lemma {:induction false} IndexOfAfter(a: string, c: char, b: string)
    requires c !in a
    ensures IndexOf(a + [c] + b, c) == |a|
    decreases |a|
  {
    if a != [] {
      var s := a + [c] + b;
      assert s[1..] == a[1..] + [c] + b;
      IndexOfAfter(a[1..], c, b);
    }
  }

  /** Text that starts with a separator-free piece and a separator splits
      into that piece followed by the split of the remainder. */
  lemma SplitCons(a: string, sep: char, b: string)
    requires sep !in a
    ensures Split(a + [sep] + b, sep) == [a] + Split(b, sep)
  {
    var s := a + [sep] + b;
    IndexOfAfter(a, sep, b);
    assert s[|a|] == sep;
    assert s[..|a|] == a;
    assert s[|a| + 1..] == b;
  }

  /** Joining pieces free of the separator and splitting again gives the
      pieces back: each piece becomes exactly one part. */
  lemma {:induction false} SplitJoin(parts: seq<string>, sep: char)
    requires |parts| >= 1
    requires forall i :: 0 <= i < |parts| ==> sep !in parts[i]
    ensures Split(Join(parts, [sep]), sep) == parts
    decreases |parts|
  {
    if |parts| > 1 {
      var rest := Join(parts[1..], [sep]);
      assert parts == [parts[0]] + parts[1..];
      JoinCons(parts[0], parts[1..], [sep]);
      SplitCons(parts[0], sep, rest);
      SplitJoin(parts[1..], sep);
    }
  }
}

=== FILE: wrappers.dfy ===
/** Optional values and results with an error value, usable with `:-`. */
module Wrappers {

  /** A value that may be absent (Python's `None`). */
  datatype Option<+T> = None | Some(value: T)

  /** Either a value or the exception that escaped instead. */
  datatype Result<+T, +E> = Ok(value: T) | Err(error: E) {

    predicate IsFailure() {
      Err?
    }

    function PropagateFailure<U>(): Result<U, E>
      requires Err?
    {
      Err(error)
    }

    function Extract(): T
      requires Ok?
    {
      value
    }
  }
}
